=== FILE: README.md ===
# learn-RTOS scheduler, modelled in Dafny

This project models the preemptive scheduler of learn-RTOS. learn-RTOS is a
series of small bare-metal kernels for an ARM Cortex-M4. The scheduler comes in
four variants, and each is one `main.c`:

- **Variant 1** (`1_task_scheduler`) has two tasks, no task control blocks, and
  plain rotation: `current_task = (current_task + 1) % TASKS`.
- **Variant 3** (`3_task-scheduler`) has a static table of three TCBs: idle,
  task1, task2. `next_task` skips tasks whose state is BLOCKED and counts their
  delay down.
- **Variant 4** (`4_task_scheduler`) is variant 3 with its stacks carved out of a
  process-stack heap below the linker symbol `_estack`.
- **Variant 5** (`5_task_scheduler`) registers tasks at run time with
  `task_start`, up to 16 of them. `next_task` tests the delay counter instead of
  the state.

The model has one module per concern.

| file | module | what it holds |
|---|---|---|
| `words.dfy` | `Words` | 32-bit words, word-addressed memory (`map<int, Word>`), and `uint32_t` subtraction with wrap-around. |
| `frame.dfy` | `StackFrame` | The 16-word synthetic frame every variant writes below a fresh stack top, and the copy loops that write it. It also shows that the frame matches the basic exception frame (R0-R3, R12, LR, return address, xPSR) of section B1.5.6 of the ARMv7-M Architecture Reference Manual, with 0xFFFFFFFD in the stacked LR slot and xPSR 0x01000000. |
| `trap.dfy` | `ContextSwitch` | The memory effect of `SysTick_Handler`. `stmdb R0!, {R4-R11}` saves eight words below the process stack pointer. `ldmia R0!, {R4-R11}` reads them back and moves the pointer eight words up. |
| `tasks.dfy` | `TaskTable` | The TCB, plus `delay`, `set_current_task_psp` and `get_current_task_psp`. Variants 3, 4 and 5 share these. |
| `policy.dfy` | `Policy` | The `next_task` loop shared by variants 3, 4 and 5. `Selector` picks the field it tests. The loop's choice is given in closed form (`IsChoice`), and so is the effect on every task it visits (`ScanEffect`). |
| `static_table.dfy` | `StaticTable` | The three-task table of variants 3 and 4, with the `next_task` and SysTick handler the two variants share. The two copies differ only in the name of the delay field (`delay_count` in variant 3) and in where the handler's `pop {LR}` sits. |
| `scheduler5.dfy`, `scheduler4.dfy`, `scheduler3.dfy`, `scheduler1.dfy` | `Scheduler5` … `Scheduler1` | One module per variant: its constants, its stack placement and its initialisation. Variants 5 and 1 also get their own `next_task` and SysTick. |

Pointers are word indices. A `uint32_t *` moved down by one lowers the index by
one. Variants 1 and 3 give their stack tops as byte addresses, so the model
divides them by 4. Variants 4 and 5 offset `(uint32_t *)&_estack` in words, and
the address of `_estack` is a parameter.

The processor state a switch preserves is the process stack pointer and R4-R11
(`Cpu`). The hardware-stacked half of the context is left to exception entry
and return. For a task's first switch-in it is checked against the frame the
kernel wrote (`ContextSwitch.FirstSwitchIn`).

### The `next_task` loop as written

All three TCB variants run the same loop. The code differs from a plain
"round robin with idle fallback" reading in four ways, and the model follows
the code:

- Index 0, the idle task, is never visited. The loop chooses it only as the
  fallback, and only from a task `c >= 2`. (Variant 5 also returns index 0,
  without running the loop, when idle is the only registered task.)
- The loop test `i != current_task` comes before the wrap back to index 1.
  - From task 0 or task 1 the loop can therefore leave only through `break`.
    It keeps lapping over tasks 1..n-1, counting every delay down, until one
    becomes ready. `IsChoice` states the result: the first task, in circular
    order from the start index, with the smallest countdown.
  - From task 1 the loop also visits task 1 itself.
  - From `c >= 2` the loop stops at the first ready task after `c` in circular
    order. When none of the other non-idle tasks is ready, it visits each of
    them once and falls back to 0.
- With every non-idle task ready, the choice is the next index in circular
  order over 1..n-1 (`Policy.AllReadyRotates`). A full cycle therefore has n-1
  steps and never includes idle (`Policy.RoundRobin`).
- In variant 5, take a table of idle plus one task, where the task calls
  `delay(d)`. A single `next_task` counts the task's delay all the way down
  and picks it again (`Scheduler5.NextTask`). Idle does not run in between.

Under the state test of variants 3 and 4, `delay(0)` still blocks the task.
The first visit then wraps its delay to 0xFFFFFFFF, so the task is skipped
2^32 times (`Policy.DelayCountdown`).

## Model

| member | source | states |
|---|---|---|
| Words.Sub32 | 4_task_scheduler/Src/main.c:117 | `uint32_t` subtraction: the plain difference when it is non-negative, otherwise the difference plus 2^32. |
| StackFrame.WriteFrame | 5_task_scheduler/Src/main.c:79-90 | The copy loop writes the 16-word frame for `handler` into the 16 words below the stack top. It returns the lowest written address and changes no other word. |
| StackFrame.WriteFrames | 3_task-scheduler/Src/main.c:83-96 | The static variants' outer loop. Each task's frame lies below its own stack top, and each stored pointer drops by 16. Memory outside the frames is unchanged, given that the frames do not overlap. |
| StackFrame.FrameLayout | 5_task_scheduler/Src/main.c:79-81 | In the written frame, eight zero words (R4-R11) lie below a basic exception frame. That frame pops as R0-R3 = 0, R12 = 0, LR = 0xFFFFFFFD, return address = the entry point, xPSR = 0x01000000. |
| ContextSwitch.Save | 5_task_scheduler/Src/main.c:137-138 | `stmdb R0!, {R4-R11}` stores R4..R11 in ascending order in the eight words below the process stack pointer. It returns the pointer 8 words lower and changes nothing else. |
| ContextSwitch.Restore | 5_task_scheduler/Src/main.c:144-145 | `ldmia R0!, {R4-R11}` yields eight words and a pointer 8 words higher. |
| ContextSwitch.RestoreAfterSave | 5_task_scheduler/Src/main.c:137-145 | Restoring from the pointer the save left gives back exactly the saved registers and the original stack pointer. |
| ContextSwitch.RestoreReadsOnly | 5_task_scheduler/Src/main.c:144 | The restore depends only on the eight words at the pointer. |
| ContextSwitch.FirstSwitchIn | 5_task_scheduler/Src/main.c:79-93 | A task's first switch-in restores all-zero R4-R11 from the pointer `task_start` stored. It leaves the process stack on a hardware frame whose return address is the entry point, with xPSR 0x01000000 and 0xFFFFFFFD in the stacked LR slot. |
| ContextSwitch.ResumeFromSaved | 5_task_scheduler/Src/main.c:142-145 | Switching in from a pointer eight words below a task's old stack pointer, where those eight words still hold its R4-R11, gives back that task's R4-R11 and stack pointer, whatever the rest of memory holds. |
| ContextSwitch.Resume | 5_task_scheduler/Src/main.c:142-145 | Switching in from a stored pointer gives a well-formed processor state: eight callee-saved registers. |
| ContextSwitch.SwitchOut | 5_task_scheduler/Src/main.c:137-140 | The first half of the handler saves R4-R11 and records the lowered pointer in the current TCB, with no other TCB changed. Afterwards every task has a context at its stored pointer, and the outgoing task's context resumes to exactly the state it left. |
| ContextSwitch.ResumeAfterSave | 5_task_scheduler/Src/main.c:134-147 | A task switched out and then switched in from the pointer recorded for it resumes with identical R4-R11 and process stack pointer. |
| TaskTable.Delay | 5_task_scheduler/Src/main.c:158-163 | `delay(msec)` sets the current task's delay to `msec` and its state to BLOCKED. Its stack pointer and every other TCB are unchanged. |
| TaskTable.SetCurrentTaskPsp | 5_task_scheduler/Src/main.c:96-100 | The current TCB's stack pointer becomes the given address. Its state and delay and every other TCB are unchanged. |
| TaskTable.PspRoundTrip | 5_task_scheduler/Src/main.c:96-106 | Get after set returns the stored address. Setting the value just read changes nothing. |
| Policy.Countdown | 4_task_scheduler/Src/main.c:115-119 | The number of visits before the scan stops at a task is 0 exactly when the task is ready. It is never above 2^32. |
| Policy.Visit | 5_task_scheduler/Src/main.c:122-126 | One visit to a task that is not ready lowers its countdown by one. The task becomes RUNNING exactly when its countdown was 1, and its stack pointer is kept. |
| Policy.Visited | 4_task_scheduler/Src/main.c:115-120 | After `v` visits the countdown has dropped by `v`. The task is RUNNING exactly when `v` used up the whole countdown. |
| Policy.VisitedDelay | 5_task_scheduler/Src/main.c:124 | After `v` visits the delay field is the old delay minus `v`, modulo 2^32. |
| Policy.DelayCountdown | 4_task_scheduler/Src/main.c:153-158 | After `delay(msec)` the scan skips the task `msec` times. Under the state test `delay(0)` means 2^32 skips. The task is ready at once only under the delay test with `msec == 0`. |
| Policy.ChoiceIgnoresPsp | 5_task_scheduler/Src/main.c:117-131 | The choice reads only states and delays, so recording a stack pointer before the scan does not change it. |
| Policy.ChoiceUnique | 5_task_scheduler/Src/main.c:117-131 | The closed-form choice of `next_task` determines a single index. |
| Policy.Scan | 5_task_scheduler/Src/main.c:117-131 | The loop returns the unique `IsChoice` index. From 0 or 1 it never returns idle. A non-idle result is ready. Every non-idle task is visited the closed-form number of times, and idle and all stack pointers are untouched. The loop terminates because each iteration that does not break lowers the sum of the countdowns. |
| Policy.AllReadyRotates | 3_task-scheduler/Src/main.c:135-151 | With every non-idle task ready, the choice is the successor of `c` in circular order over 1..n-1, and only that. |
| Policy.RoundsRotate | 3_task-scheduler/Src/main.c:137-139 | From a non-idle task, `k` scans over ready tasks advance `k` places over 1..n-1, wrapping from n-1 to 1. |
| Policy.RoundRobin | 3_task-scheduler/Src/main.c:135-151 | With all tasks ready, n-1 scans from a non-idle task pick each of 1..n-1 once, never idle, and return to the start. |
| Scheduler5.Boot | 5_task_scheduler/Src/main.c:32-37 | The zero-initialised table satisfies the table invariant, with no tasks registered. |
| Scheduler5.SlotInHeap | 5_task_scheduler/Src/main.c:9-15 | Each of the 16 slots' frames lies inside the process-stack heap. |
| Scheduler5.SlotsApart | 5_task_scheduler/Src/main.c:84 | Frames of different slots never overlap. |
| Scheduler5.TaskStart | 5_task_scheduler/Src/main.c:72-94 | A full table returns 255 and changes nothing. Otherwise the call claims slot `no_of_tasks`, writes its frame, stores the lowered pointer and sets RUNNING, leaving the delay as it was. Other slots and memory outside the frame are unchanged, and the table invariant is kept. |
| Scheduler5.RegisterTasks | 5_task_scheduler/Src/main.c:165-189 | `scheduler_init` plus two `task_start` calls give idle, task1 and task2 slots 0, 1 and 2, each with its frame intact. The process stack starts on idle's frame, and each non-current task has a context to restore. |
| Scheduler5.NextTask | 5_task_scheduler/Src/main.c:108-132 | A lone task resumes as index 0. Otherwise the result is the shared scan on the delay test over the registered tasks. With idle plus one task and task 1 current, task 1 is chosen again with its delay at 0. The table invariant is kept. |
| Scheduler5.RecordAndSchedule | 5_task_scheduler/Src/main.c:140-141 | The TCB half of the handler records the given pointer for the outgoing task and picks the `IsChoice` task on the delay test. No other pointer changes, every visited task is counted down as `ScanEffect` says, and the table invariant is kept. |
| Scheduler5.Tick | 5_task_scheduler/Src/main.c:134-147 | One SysTick saves R4-R11 below the process stack pointer and records the new pointer in the outgoing TCB. It picks the `IsChoice` task and resumes it from its stored pointer. Every other task's pointer is unchanged, every visited task is counted down as `ScanEffect` says, and the table invariant is kept. Every other task still has a saved context, and if the same task is picked it resumes unchanged. |
| Scheduler5.TwoTicks | 5_task_scheduler/Src/main.c:134-147 | Take a task that one tick switches out and the next tick chooses again. The task running in between leaves its eight saved words alone and saves its own context elsewhere. The task then resumes with identical R4-R11 and stack pointer. |
| Scheduler4.TopsInHeap | 4_task_scheduler/Src/main.c:10-15 | The three frames below `__psp_heap_start - (i + 1) * 48` are pairwise disjoint and inside the process-stack heap. |
| Scheduler4.InitTaskStackAsDeclared | 4_task_scheduler/Src/main.c:69-92 | `init_task_stack` against the one-entry table `tasks[] = { 0 }`. The loop runs once per handler. Index 0 gets its TCB and frame, and an index is written past the table's end exactly when it is at least 1 and below the handler count. With the three handlers that is indices 1 and 2. |
| Scheduler4.InitTaskStack | 4_task_scheduler/Src/main.c:69-92 | On a table of three entries, each task gets its heap slot, RUNNING, delay 0 and its frame. The stored pointer is the frame's lowest word, and memory outside the frames is unchanged. |
| Scheduler4.Start | 4_task_scheduler/Src/main.c:143-167 | `scheduler_init` leaves idle current, with the process stack on idle's frame. Every task is RUNNING with delay 0 and keeps its handler, and its stored pointer is the lowest word of its frame, which holds its entry point, so the first switch-in of each task goes through `FirstSwitchIn`. |
| Scheduler4.FirstTick | 4_task_scheduler/Src/main.c:128-167 | `scheduler_init` followed by the first SysTick switches from idle to task 1. Task 1 starts with zero R4-R11 on a process stack whose hardware frame holds its entry point, and idle's pointer is recorded 8 words below where it was. This needs idle's saved words to miss task 1's frame. |
| Scheduler3.InitialTable | 3_task-scheduler/Src/main.c:8-52 | The static table: all RUNNING with zero delay, task 1 current, and stack tops 1024 bytes apart. The frames are disjoint and above the scheduler's stack. |
| Scheduler3.InitTaskStack | 3_task-scheduler/Src/main.c:83-96 | Each frame is written below the task's stack top, and each stored pointer drops by 16 words. Everything else is unchanged. |
| Scheduler3.Start | 3_task-scheduler/Src/main.c:98-121 | Boot leaves task 1 current, with the process stack on its frame. The stored pointers of idle and task 2 are the lowest words of their frames, which hold their entry points. All three tasks are RUNNING with delay 0, and the handlers are idle, task1 and task2 in that order. |
| Scheduler3.FirstTick | 3_task-scheduler/Src/main.c:98-181 | Boot followed by the first SysTick switches from task 1 to task 2. Task 2 starts with zero R4-R11 on a process stack whose hardware frame holds its entry point, and task 1's pointer is recorded 8 words below where it was. This needs task 1's saved words to miss task 2's frame. |
| StaticTable.NextTask | 4_task_scheduler/Src/main.c:106-126 | The shared scan on the state test over three tasks. The same code is at lines 135-151 of variant 3. From task 2, a RUNNING task 1 is chosen with the table unchanged. Otherwise task 1 is counted down once and idle is chosen. |
| StaticTable.RecordAndSchedule | 4_task_scheduler/Src/main.c:134-135 | The TCB half of the handler records the given pointer for the outgoing task and picks the `IsChoice` task on the state test. No other pointer and no handler changes, and every visited task is counted down as `ScanEffect` says. |
| StaticTable.Tick | 3_task-scheduler/Src/main.c:153-181 | One SysTick of variants 3 and 4. It saves R4-R11 below the process stack pointer and records the new pointer in the outgoing TCB. It picks the `IsChoice` task on the state test and resumes it from its stored pointer. Every other task's pointer and the handlers are unchanged, every visited task is counted down as `ScanEffect` says, and every other task still has a saved context. |
| StaticTable.TwoTicks | 4_task_scheduler/Src/main.c:128-141 | Take a task that one tick switches out and the next tick chooses again. The task running in between leaves its eight saved words alone and saves its own context elsewhere. The task then resumes with identical R4-R11 and stack pointer. |
| Scheduler1.InitialTops | 1_task_scheduler/Src/main.c:8-29 | The two stack tops give disjoint frames above the scheduler's stack. |
| Scheduler1.InitTaskStack | 1_task_scheduler/Src/main.c:63-76 | Each frame is written below `psp[i]`, and `psp[i]` drops by 16 words. |
| Scheduler1.Start | 1_task_scheduler/Src/main.c:78-96 | Task 0 runs first on its lowered pointer, so the first tick finds it current with its pointer set. Task 1's frame is in place and `psp[1]` is its lowest word. |
| Scheduler1.NextTask | 1_task_scheduler/Src/main.c:106-108 | The next index is always a valid task. |
| Scheduler1.AdvanceIsRotation | 1_task_scheduler/Src/main.c:106-108 | `k` ticks move the current index `k` places modulo 2. |
| Scheduler1.RoundRobin | 1_task_scheduler/Src/main.c:106-108 | Two ticks return to the start, and within a cycle every index is reached once. |
| Scheduler1.SetCurrentTaskPsp | 1_task_scheduler/Src/main.c:102-104 | `psp[current_task]` becomes the given address, and no other entry changes. |
| Scheduler1.Tick | 1_task_scheduler/Src/main.c:110-149 | One SysTick switches to the other task. It records the outgoing pointer 8 words lower with R4-R11 saved there, and resumes the incoming task from its stored pointer. |
| Scheduler1.TwoTicksResume | 1_task_scheduler/Src/main.c:110-149 | Take a task switched out by one tick, where the other task neither touches its eight saved words nor saves over them. The next tick makes it current again with identical R4-R11 and stack pointer. |

## Findings

| source | as written | input that shows it | evidently intended | confidence | as-written member | corrected member |
|---|---|---|---|---|---|---|
| 4_task_scheduler/Src/main.c:44-45 | `tcb_t tasks[] = { 0 };` gives the table one entry, but `init_task_stack` (lines 74-91) writes `tasks[0..2]` and `next_task` reads `tasks[1..2]`. | Boot: the loop's second iteration, `i = 1`, writes past the table. | `tcb_t tasks[TASKS]`, a table of three entries. | not executed | Scheduler4.InitTaskStackAsDeclared | Scheduler4.InitTaskStack |

## Left out

- Hardware set-up is outside the model: `enable_faults`, `enable_systick` and the SysTick reload value, the GPIO driver (`gpio.c`, `gpio.h`) and `blink.c`.
- The EXC_RETURN value in LR when `SysTick_Handler` executes `bx LR` is not modelled: the handler's LR comes from exception entry and is saved and restored around the `bl` on the main stack. The mode and stack the return goes to are therefore not stated. The 0xFFFFFFFD in each synthetic frame is only the task's initial LR.
- Scheduler4.InitTaskStackAsDeclared: the writes past the one-entry table are undefined behaviour in C, so the model records their indices and does not say what they overwrite.
- StackFrame.FrameLayout: the return-address slot holds the handler's address as the C code casts it, `(uint32_t) handler`. For a Thumb function that address has bit 0 set, and the model does not look at that bit: `handler` is any word. Whether exception return accepts it is not stated.
- Exception entry and return are not instructions in the model. Instead, the frame a first switch-in returns through is compared with the basic frame of the ARMv7-M exception model (`ContextSwitch.FirstSwitchIn`).
- The instruction sequence of the naked functions (`init_psp`, `init_scheduler_stack`, `SysTick_Handler`) is left out: the CONTROL write, the MSP set-up and the `push`/`pop` of LR on the main stack. The model keeps their effect on the process stack pointer, R4-R11 and task memory.
- Interrupts and concurrency are left out. A tick is one atomic step, and a task body runs between ticks as an arbitrary change of memory and registers (the parameters of `Tick`, `TwoTicks` and `TwoTicksResume`). In `TwoTicks` the memory change is a map of written words, merged over the memory the first tick left.
- Task bodies (`idle`, `task1`, `task2`, `task3`) are left out, and so are their calls into `delay` and `toggle_gpiod`. Variant 3 declares `idle` but never defines it.
- Variants 3 and 4 keep the handler inside the TCB. The model keeps the handlers in a sequence beside the TCBs, so all variants share one TCB type. Variant 3's field `delay_count` is the model's `delay`.
- The address of `_estack` is fixed by the linker and is a parameter. Addresses are unbounded word indices, with no 32-bit wrap of pointers.
- Scheduler5.NextTask: requires at least one registered task. With none, the loop would read the zero slot 1. That never happens because `scheduler_init` registers idle before the timer starts.
- The counters `i` and `next_task` of the loop are `uint16_t`, and `current_task` is `uint8_t`. Table sizes are at most 16, so neither can wrap, and the model uses unbounded naturals.
- Variant 5 writes the state field in `next_task` but never reads it, and `task_start` does not reset the delay. Both are modelled as written.
- Scheduler5.Tick, StaticTable.Tick, Scheduler1.Tick and Scheduler1.TwoTicksResume (and the TwoTicks methods built on the first two) require every non-current task to have eight mapped words at its stored pointer, and do not model a stray pointer.

=== FILE: frame.dfy ===
/**
  The synthetic stack frame every variant writes below a fresh task's stack top.

  The kernel keeps a 16-word array in write order, xPSR first, and copies it
  downwards (`ptr--; *ptr = frame[i];`), so in ascending address order the
  slab holds R4-R11, then the eight words the processor pops on exception
  return (section B1.5.6 of the ARMv7-M Architecture Reference Manual): R0,
  R1, R2, R3, R12, LR, ReturnAddress, xPSR.
 */
module StackFrame {
  import opened Words

  /** Words in the synthetic frame, and words the trap saves itself. */
  const FRAME_WORDS: nat := 16
  const SAVED_WORDS: nat := 8

  /** xPSR with only the Thumb bit (bit 24) set. */
  const XPSR_THUMB: Word := 0x0100_0000
  /** The word the frame puts in the stacked LR slot, so the task starts with
      0xFFFFFFFD in LR. It is data popped into LR, not the EXC_RETURN the
      handler's own `bx LR` uses. */
  const STACKED_LR: Word := 0xFFFF_FFFD

  /** The kernel's frame array, in the order it is written (highest address first). */
  function InitialFrame(handler: Word): (f: seq<Word>)
    ensures |f| == FRAME_WORDS
  {
    [XPSR_THUMB, handler, STACKED_LR] + seq(13, _ => 0)
  }

  /** The frame for `handler` occupies the 16 words just below `top`. */
  ghost predicate FrameAt(mem: Mem, top: Addr, handler: Word)
  {
    forall a :: top - FRAME_WORDS <= a < top ==> a in mem && mem[a] == InitialFrame(handler)[top - 1 - a]
  }

  /** Words [top - 16, top): the footprint of the frame whose stack top is `top`. */
  predicate InFrame(top: Addr, a: Addr)
  {
    top - FRAME_WORDS <= a < top
  }

  /** Two frames whose tops lie at least 16 words apart share no word. */
  predicate FramesApart(top1: Addr, top2: Addr)
  {
    top1 + FRAME_WORDS <= top2 || top2 + FRAME_WORDS <= top1
  }

  /** The copy loop of `init_task_stack` / `task_start`: writes the frame
      downwards from `top` and returns the lowest written address. */
  method WriteFrame(mem: Mem, top: Addr, handler: Word) returns (mem': Mem, sp: Addr)
    ensures sp == top - FRAME_WORDS
    ensures FrameAt(mem', top, handler)
    ensures SameOutside(mem, mem', sp, top)
  {
    var frame := InitialFrame(handler);
    var len := |frame|;
    var ptr := top;
    mem' := mem;
    var i := 0;
    while i < len
      invariant 0 <= i <= len
      invariant ptr == top - i
      invariant forall a :: ptr <= a < top ==> a in mem' && mem'[a] == frame[top - 1 - a]
      invariant SameOutside(mem, mem', ptr, top)
    {
      ptr := ptr - 1;
      mem' := mem'[ptr := frame[i]];
      i := i + 1;
    }
    sp := ptr;
  }

  /** Writes outside a frame leave it intact. */
  lemma FrameKept(mem: Mem, mem': Mem, top: Addr, handler: Word, lo: Addr, hi: Addr)
    requires FrameAt(mem, top, handler)
    requires SameOutside(mem, mem', lo, hi)
    requires hi <= top - FRAME_WORDS || top <= lo
    ensures FrameAt(mem', top, handler)
  {
    forall a | top - FRAME_WORDS <= a < top
      ensures a in mem' && mem'[a] == InitialFrame(handler)[top - 1 - a]
    {
      assert a < lo || hi <= a;
    }
  }

  /** No two of the frames below `tops` share a word. */
  ghost predicate SlabsApart(tops: seq<Addr>)
  {
    forall i, j :: 0 <= i < j < |tops| ==> FramesApart(tops[i], tops[j])
  }

  /** Address `a` lies in none of the frames below `tops`. */
  ghost predicate OutsideFrames(tops: seq<Addr>, a: Addr)
  {
    forall i :: 0 <= i < |tops| ==> !InFrame(tops[i], a)
  }

  /** Writing frame i of a table whose frames are apart leaves frames
      0..i-1 intact. */
  lemma EarlierFramesKept(mem: Mem, mem': Mem, tops: seq<Addr>, handlers: seq<Word>, i: nat)
    requires i < |tops| == |handlers| && SlabsApart(tops)
    requires forall j :: 0 <= j < i ==> FrameAt(mem, tops[j], handlers[j])
    requires SameOutside(mem, mem', tops[i] - FRAME_WORDS, tops[i])
    ensures forall j :: 0 <= j < i ==> FrameAt(mem', tops[j], handlers[j])
  {
    forall j | 0 <= j < i
      ensures FrameAt(mem', tops[j], handlers[j])
    {
      assert FramesApart(tops[j], tops[i]);
      FrameKept(mem, mem', tops[j], handlers[j], tops[i] - FRAME_WORDS, tops[i]);
    }
  }

  /** Address `a` lies in none of the first n frames below `tops`. */
  ghost predicate OutsideFirst(tops: seq<Addr>, n: nat, a: Addr)
    requires n <= |tops|
  {
    forall j :: 0 <= j < n ==> !InFrame(tops[j], a)
  }

  /** Writing frame i leaves every word outside the first i + 1 frames as
      it was before frames 0..i-1 were written. */
  lemma OutsideKept(mem: Mem, before: Mem, after: Mem, tops: seq<Addr>, i: nat)
    requires i < |tops|
    requires forall a :: OutsideFirst(tops, i, a) ==> (a in before <==> a in mem) && (a in mem ==> before[a] == mem[a])
    requires SameOutside(before, after, tops[i] - FRAME_WORDS, tops[i])
    ensures forall a :: OutsideFirst(tops, i + 1, a) ==> (a in after <==> a in mem) && (a in mem ==> after[a] == mem[a])
  {
    forall a | OutsideFirst(tops, i + 1, a)
      ensures (a in after <==> a in mem) && (a in mem ==> after[a] == mem[a])
    {
      assert !InFrame(tops[i], a);
      assert OutsideFirst(tops, i, a);
    }
  }

  /** The outer loop of `init_task_stack` in the static variants: one frame
      per task, written below that task's stack top in table order; returns
      the lowered stack pointers. */
  method WriteFrames(mem: Mem, tops: seq<Addr>, handlers: seq<Word>) returns (mem': Mem, sps: seq<Addr>)
    requires |tops| == |handlers|
    requires SlabsApart(tops)
    ensures |sps| == |tops|
    ensures forall i :: 0 <= i < |tops| ==> sps[i] == tops[i] - FRAME_WORDS && FrameAt(mem', tops[i], handlers[i])
    ensures forall a :: OutsideFrames(tops, a) ==> (a in mem' <==> a in mem) && (a in mem ==> mem'[a] == mem[a])
  {
    mem' := mem;
    sps := [];
    var i := 0;
    while i < |tops|
      invariant 0 <= i <= |tops| && |sps| == i
      invariant forall j :: 0 <= j < i ==> sps[j] == tops[j] - FRAME_WORDS && FrameAt(mem', tops[j], handlers[j])
      invariant forall a :: OutsideFirst(tops, i, a) ==> (a in mem' <==> a in mem) && (a in mem ==> mem'[a] == mem[a])
    {
      var before := mem';
      var sp;
      mem', sp := WriteFrame(mem', tops[i], handlers[i]);
      EarlierFramesKept(before, mem', tops, handlers, i);
      OutsideKept(mem, before, mem', tops, i);
      sps := sps + [sp];
      i := i + 1;
    }
    forall a | OutsideFrames(tops, a)
      ensures OutsideFirst(tops, |tops|, a)
    {
    }
  }

  /** The eight words the processor pops on exception return, lowest address first. */
  datatype HardwareFrame = HardwareFrame(r0: Word, r1: Word, r2: Word, r3: Word, r12: Word, lr: Word, pc: Word, xpsr: Word)

  /** Exception return (section B1.5.8): read the basic frame at `sp` in ascending order. */
  function PopHardwareFrame(mem: Mem, sp: Addr): (f: HardwareFrame)
    requires Mapped(mem, sp, sp + 8)
  {
    HardwareFrame(mem[sp], mem[sp + 1], mem[sp + 2], mem[sp + 3], mem[sp + 4], mem[sp + 5], mem[sp + 6], mem[sp + 7])
  }

  /** The written frame matches the layout exception return pops: above
      eight zero words for R4-R11 lie zero R0-R3 and R12, LR 0xFFFFFFFD, the
      entry point as return address and a Thumb xPSR. */
  lemma FrameLayout(mem: Mem, top: Addr, handler: Word)
    requires FrameAt(mem, top, handler)
    ensures Mapped(mem, top - FRAME_WORDS, top)
    ensures forall a :: top - FRAME_WORDS <= a < top - SAVED_WORDS ==> mem[a] == 0
    ensures PopHardwareFrame(mem, top - SAVED_WORDS)
         == HardwareFrame(0, 0, 0, 0, 0, STACKED_LR, handler, XPSR_THUMB)
  {
    var f := InitialFrame(handler);
    assert mem[top - 1] == f[0] == XPSR_THUMB;
    assert mem[top - 2] == f[1] == handler;
    assert mem[top - 3] == f[2] == STACKED_LR;
    forall a | top - FRAME_WORDS <= a < top - 3
      ensures mem[a] == 0
    {
      assert mem[a] == f[top - 1 - a];
    }
  }
}

=== FILE: policy.dfy ===
/**
  The `next_task` scan shared by variants 3, 4 and 5.

  All three variants run the same loop. It starts at the task after the
  current one (at task 1 when the idle task is current) and steps upwards,
  wrapping from the last task back to task 1, until it meets a ready task,
  which becomes current, or comes back to the current task, in which case
  the idle task, index 0, becomes current.

  Variant 5 tests `delay > 0` (the state field is written but never read);
  variants 3 and 4 test `state != STATE_RUNNING`. Either way a task that is
  not ready has its `uint32_t` delay lowered by one and becomes RUNNING
  exactly when the delay reaches zero.

  Index 0 is never visited. The loop test comes before the wrap, so from
  task 0 or task 1 the loop can only leave through `break`: it may run
  several laps over tasks 1..N-1 and, from task 1, visits task 1 itself.
  From a task c >= 2 it stops at the first ready task after c; when none
  of the other non-idle tasks is ready, it visits each of them once and
  falls back to index 0.
 */
module Policy {
  import opened Words
  import opened TaskTable

  /** Which field `next_task` consults: the delay (variant 5) or the state (variants 3 and 4). */
  datatype Selector = OnDelay | OnState

  /** The scan stops at a task exactly when this holds. */
  predicate Ready(sel: Selector, t: Tcb)
  {
    match sel
    case OnDelay => t.delay == 0
    case OnState => t.state == Running
  }

  /** How many more visits the scan pays to `t` before it is ready: a
      blocked task whose delay is already 0 wraps to 0xFFFFFFFF and needs a
      full 2^32 visits. */
  function Countdown(sel: Selector, t: Tcb): (n: nat)
    ensures n == 0 <==> Ready(sel, t)
    ensures n <= WORD_MODULUS
  {
    match sel
    case OnDelay => t.delay
    case OnState => if t.state == Running then 0 else if t.delay == 0 then WORD_MODULUS else t.delay
  }

  /** What one visit of the scan does to a task that is not ready. */
  function Visit(sel: Selector, t: Tcb): (t': Tcb)
    requires !Ready(sel, t)
    ensures t'.psp == t.psp
    ensures Countdown(sel, t') == Countdown(sel, t) - 1
    ensures t'.state == Running <==> Countdown(sel, t) == 1
  {
    var d := Sub32(t.delay, 1);
    t.(delay := d, state := if d == 0 then Running else Blocked)
  }

  /** `t` after `v` visits. */
  function Visited(sel: Selector, t: Tcb, v: nat): (t': Tcb)
    requires v <= Countdown(sel, t)
    ensures t'.psp == t.psp
    ensures Countdown(sel, t') == Countdown(sel, t) - v
    ensures v > 0 ==> (t'.state == Running <==> v == Countdown(sel, t))
    decreases v
  {
    if v == 0 then t else Visit(sel, Visited(sel, t, v - 1))
  }

  /** After `v` visits the delay has dropped by exactly `v`, modulo 2^32. */
  lemma {:induction false} VisitedDelay(sel: Selector, t: Tcb, v: nat)
    requires v <= Countdown(sel, t)
    ensures Visited(sel, t, v).delay == (t.delay - v) % WORD_MODULUS
  {
    if v > 0 {
      VisitedDelay(sel, t, v - 1);
    }
  }

  /** What `delay(msec)` buys: the scan skips the task for exactly `msec`
      visits and finds it ready on the last of them. Under the state test
      `delay(0)` still blocks the task, and the first visit wraps its delay
      to 0xFFFFFFFF, so it is skipped 2^32 times. */
  lemma DelayCountdown(sel: Selector, ts: seq<Tcb>, current: nat, msec: Word)
    requires current < |ts|
    ensures var t := Delay(ts, current, msec)[current];
            && Countdown(sel, t) == (if sel == OnState && msec == 0 then WORD_MODULUS else msec)
            && (Ready(sel, t) <==> sel == OnDelay && msec == 0)
  {
  }

  /** Sum of the countdowns of tasks lo..hi-1: what the scan still has to pay. */
  ghost function Backlog(sel: Selector, ts: seq<Tcb>, lo: nat, hi: nat): nat
    requires lo <= hi <= |ts|
    decreases hi - lo
  {
    if lo == hi then 0 else Countdown(sel, ts[lo]) + Backlog(sel, ts, lo + 1, hi)
  }

  lemma {:induction false} BacklogSame(sel: Selector, ts: seq<Tcb>, us: seq<Tcb>, lo: nat, hi: nat)
    requires lo <= hi <= |ts| && hi <= |us|
    requires forall k :: lo <= k < hi ==> ts[k] == us[k]
    ensures Backlog(sel, ts, lo, hi) == Backlog(sel, us, lo, hi)
    decreases hi - lo
  {
    if lo < hi {
      BacklogSame(sel, ts, us, lo + 1, hi);
    }
  }

  /** Replacing one task changes the backlog by the change in its countdown. */
  lemma {:induction false} BacklogUpdate(sel: Selector, ts: seq<Tcb>, lo: nat, hi: nat, j: nat, t: Tcb)
    requires lo <= j < hi <= |ts|
    ensures Backlog(sel, ts[j := t], lo, hi) == Backlog(sel, ts, lo, hi) - Countdown(sel, ts[j]) + Countdown(sel, t)
    decreases hi - lo
  {
    if lo == j {
      BacklogSame(sel, ts, ts[j := t], lo + 1, hi);
    } else {
      BacklogUpdate(sel, ts, lo + 1, hi, j, t);
    }
  }

  /** The first index the scan visits from current task c, among n tasks. */
  function Start(n: nat, c: nat): (s: nat)
    requires 2 <= n && c < n
    ensures 1 <= s < n
  {
    if c == 0 || c + 1 == n then 1 else c + 1
  }

  /** Position of task k (1 <= k < n) in the scan's circular order over 1..n-1. */
  function Pos(n: nat, c: nat, k: nat): (p: nat)
    requires 2 <= n && c < n && 1 <= k < n
    ensures p < n - 1
  {
    var s := Start(n, c);
    if k >= s then k - s else k - s + (n - 1)
  }

  /** The task at position p of the circular order. */
  function Idx(n: nat, c: nat, p: nat): (k: nat)
    requires 2 <= n && c < n && p < n - 1
    ensures 1 <= k < n && Pos(n, c, k) == p
  {
    var s := Start(n, c);
    if s + p < n then s + p else s + p - (n - 1)
  }

  /** The choice `next_task` makes, stated without the loop: from task 0 or
      1 the first task, in circular order, with the least countdown; from a
      task c >= 2 the first ready task other than c, or the idle task 0 when
      none is ready. */
  ghost predicate IsChoice(sel: Selector, ts: seq<Tcb>, n: nat, c: nat, r: nat)
    requires 2 <= n <= |ts| && c < n
  {
    if r == 0 then
      2 <= c && forall k :: 1 <= k < n && k != c ==> !Ready(sel, ts[k])
    else
      && r < n
      && (2 <= c ==> r != c && Ready(sel, ts[r]))
      && forall k :: 1 <= k < n && k != r ==>
           && (Pos(n, c, k) < Pos(n, c, r) ==> Countdown(sel, ts[k]) > Countdown(sel, ts[r]))
           && (Pos(n, c, k) > Pos(n, c, r) ==> Countdown(sel, ts[k]) >= Countdown(sel, ts[r]))
  }

  /** At most one index satisfies IsChoice. */
  lemma ChoiceUnique(sel: Selector, ts: seq<Tcb>, n: nat, c: nat, r1: nat, r2: nat)
    requires 2 <= n <= |ts| && c < n
    requires IsChoice(sel, ts, n, c, r1) && IsChoice(sel, ts, n, c, r2)
    ensures r1 == r2
  {
    if r1 != 0 && r2 != 0 {
      PosInjective(n, c, r1, r2);
    }
  }

  /** The choice reads only states and delays: tables that agree on them
      have the same choice, whatever their stack pointers. */
  lemma ChoiceIgnoresPsp(sel: Selector, ts: seq<Tcb>, us: seq<Tcb>, n: nat, c: nat)
    requires 2 <= n <= |ts| && n <= |us| && c < n
    requires forall k :: 0 <= k < n ==> ts[k].state == us[k].state && ts[k].delay == us[k].delay
    ensures forall r :: IsChoice(sel, ts, n, c, r) <==> IsChoice(sel, us, n, c, r)
  {
    assert forall k :: 0 <= k < n ==> Countdown(sel, ts[k]) == Countdown(sel, us[k]) && (Ready(sel, ts[k]) <==> Ready(sel, us[k]));
  }

  /** Distinct tasks have distinct positions in the scan order. */
  lemma PosInjective(n: nat, c: nat, k1: nat, k2: nat)
    requires 2 <= n && c < n && 1 <= k1 < n && 1 <= k2 < n
    ensures Pos(n, c, k1) == Pos(n, c, k2) ==> k1 == k2
  {
  }

  /** How many times the scan that chose r visited task k. */
  function VisitCount(sel: Selector, ts: seq<Tcb>, n: nat, c: nat, r: nat, k: nat): nat
    requires 2 <= n <= |ts| && c < n && r < n && 1 <= k < n
  {
    if r == 0 then (if k == c then 0 else 1)
    else Countdown(sel, ts[r]) + (if Pos(n, c, k) < Pos(n, c, r) then 1 else 0)
  }

  /** The table the scan leaves behind: every non-idle task has been visited
      VisitCount times; the idle task and the slots from n on are untouched. */
  ghost predicate ScanEffect(sel: Selector, ts0: seq<Tcb>, ts: seq<Tcb>, n: nat, c: nat, r: nat)
    requires 2 <= n <= |ts0| && c < n && r < n
  {
    && |ts| == |ts0|
    && forall k :: 0 <= k < |ts| ==>
         if 1 <= k < n then
           VisitCount(sel, ts0, n, c, r, k) <= Countdown(sel, ts0[k])
           && ts[k] == Visited(sel, ts0[k], VisitCount(sel, ts0, n, c, r, k))
         else ts[k] == ts0[k]
  }

  /** The loop invariant of Scan for task k, after `lap` full laps and `p`
      further visits: a visited task was not ready when visited, and has
      been visited once per lap plus once if it lies before position p. */
  ghost predicate ProgressAt(sel: Selector, ts0: seq<Tcb>, ts: seq<Tcb>, n: nat, c: nat, lap: nat, p: nat, k: nat)
    requires 2 <= n <= |ts0| && c < n && |ts| == |ts0| && k < |ts|
  {
    if 1 <= k < n then
      && (Pos(n, c, k) < p ==> Countdown(sel, ts0[k]) > lap)
      && (Pos(n, c, k) >= p ==> Countdown(sel, ts0[k]) >= lap)
      && ts[k] == Visited(sel, ts0[k], lap + if Pos(n, c, k) < p then 1 else 0)
    else ts[k] == ts0[k]
  }

  /** The loop invariant of Scan for the whole table. */
  ghost predicate Progress(sel: Selector, ts0: seq<Tcb>, ts: seq<Tcb>, n: nat, c: nat, lap: nat, p: nat)
    requires 2 <= n <= |ts0| && c < n
  {
    && |ts| == |ts0|
    && forall k :: 0 <= k < |ts| ==> ProgressAt(sel, ts0, ts, n, c, lap, p, k)
  }

  /** Progress, task by task, in full. */
  lemma ProgressExpand(sel: Selector, ts0: seq<Tcb>, ts: seq<Tcb>, n: nat, c: nat, lap: nat, p: nat)
    requires 2 <= n <= |ts0| && c < n
    requires Progress(sel, ts0, ts, n, c, lap, p)
    ensures forall k :: 0 <= k < |ts| ==>
              if 1 <= k < n then
                && (Pos(n, c, k) < p ==> Countdown(sel, ts0[k]) > lap)
                && (Pos(n, c, k) >= p ==> Countdown(sel, ts0[k]) >= lap)
                && ts[k] == Visited(sel, ts0[k], lap + if Pos(n, c, k) < p then 1 else 0)
              else ts[k] == ts0[k]
  {
    forall k | 0 <= k < |ts|
      ensures if 1 <= k < n then
                && (Pos(n, c, k) < p ==> Countdown(sel, ts0[k]) > lap)
                && (Pos(n, c, k) >= p ==> Countdown(sel, ts0[k]) >= lap)
                && ts[k] == Visited(sel, ts0[k], lap + if Pos(n, c, k) < p then 1 else 0)
              else ts[k] == ts0[k]
    {
      assert ProgressAt(sel, ts0, ts, n, c, lap, p, k);
    }
  }

  /** The visit at position p, seen from task k. */
  lemma StepVisitAt(sel: Selector, ts0: seq<Tcb>, ts: seq<Tcb>, n: nat, c: nat, lap: nat, p: nat, lap': nat, p': nat, k: nat)
    requires 2 <= n <= |ts0| && c < n && p < n - 1 && |ts| == |ts0| && k < |ts|
    requires p + 1 == n - 1 ==> lap' == lap + 1 && p' == 0
    requires p + 1 < n - 1 ==> lap' == lap && p' == p + 1
    requires ProgressAt(sel, ts0, ts, n, c, lap, p, Idx(n, c, p))
    requires ProgressAt(sel, ts0, ts, n, c, lap, p, k)
    requires !Ready(sel, ts[Idx(n, c, p)])
    ensures var j := Idx(n, c, p); ProgressAt(sel, ts0, ts[j := Visit(sel, ts[j])], n, c, lap', p', k)
  {
    var j := Idx(n, c, p);
    if k == j {
      assert ts[j] == Visited(sel, ts0[j], lap);
    } else if 1 <= k < n {
      PosInjective(n, c, k, j);
    }
  }

  /** Visiting the task at position p, which is not ready, advances the
      scan by one position: to the next lap after the last position. */
  lemma StepVisit(sel: Selector, ts0: seq<Tcb>, ts: seq<Tcb>, n: nat, c: nat, lap: nat, p: nat)
      returns (lap': nat, p': nat)
    requires 2 <= n <= |ts0| && c < n && p < n - 1
    requires Progress(sel, ts0, ts, n, c, lap, p)
    requires !Ready(sel, ts[Idx(n, c, p)])
    ensures p + 1 == n - 1 ==> lap' == lap + 1 && p' == 0
    ensures p + 1 < n - 1 ==> lap' == lap && p' == p + 1
    ensures var j := Idx(n, c, p); Progress(sel, ts0, ts[j := Visit(sel, ts[j])], n, c, lap', p')
  {
    if p + 1 == n - 1 {
      lap', p' := lap + 1, 0;
    } else {
      lap', p' := lap, p + 1;
    }
    var j := Idx(n, c, p);
    var ts' := ts[j := Visit(sel, ts[j])];
    forall k | 0 <= k < |ts'|
      ensures ProgressAt(sel, ts0, ts', n, c, lap', p', k)
    {
      StepVisitAt(sel, ts0, ts, n, c, lap, p, lap', p', k);
    }
  }

  /** Leaving through `break` at position p: the table and the choice are as promised. */
  lemma ExitAtReady(sel: Selector, ts0: seq<Tcb>, ts: seq<Tcb>, n: nat, c: nat, lap: nat, p: nat)
    requires 2 <= n <= |ts0| && c < n && p < n - 1
    requires Progress(sel, ts0, ts, n, c, lap, p)
    requires 2 <= c ==> lap == 0 && Idx(n, c, p) != c
    requires Ready(sel, ts[Idx(n, c, p)])
    ensures Idx(n, c, p) != 0
    ensures IsChoice(sel, ts0, n, c, Idx(n, c, p))
    ensures ScanEffect(sel, ts0, ts, n, c, Idx(n, c, p))
  {
    ProgressExpand(sel, ts0, ts, n, c, lap, p);
    var j := Idx(n, c, p);
    assert Countdown(sel, ts0[j]) == lap;
    forall k | 1 <= k < n && k != j
      ensures Pos(n, c, k) != p
    {
    }
  }

  /** Leaving through the loop test, from a task c >= 2 after one lap: the
      idle task is chosen and every other non-idle task was visited once. */
  lemma ExitAtCurrent(sel: Selector, ts0: seq<Tcb>, ts: seq<Tcb>, n: nat, c: nat)
    requires 2 <= n <= |ts0| && 2 <= c < n
    requires Progress(sel, ts0, ts, n, c, 0, n - 2)
    ensures IsChoice(sel, ts0, n, c, 0)
    ensures ScanEffect(sel, ts0, ts, n, c, 0)
  {
    ProgressExpand(sel, ts0, ts, n, c, 0, n - 2);
    assert Pos(n, c, c) == n - 2;
    forall k | 1 <= k < n && k != c
      ensures Pos(n, c, k) < n - 2
    {
    }
  }

  /** The index after the task at position p, once wrapped past n to 1, is the task at the next position. */
  lemma IdxNext(n: nat, c: nat, p: nat)
    requires 2 <= n && c < n && p < n - 1
    ensures var i := Idx(n, c, p) + 1;
            (if i == n then 1 else i) == Idx(n, c, if p + 1 == n - 1 then 0 else p + 1)
  {
  }

  /** The scan's last position, from a task c >= 2, is c itself. */
  lemma LastIsCurrent(n: nat, c: nat)
    requires 2 <= c < n
    ensures Idx(n, c, n - 2) == c
  {
  }

  /** What a caller of the scan reads off its effect and choice. */
  lemma ScanConsequences(sel: Selector, ts0: seq<Tcb>, ts: seq<Tcb>, n: nat, c: nat, r: nat)
    requires 2 <= n <= |ts0| && c < n && r < n
    requires IsChoice(sel, ts0, n, c, r)
    requires ScanEffect(sel, ts0, ts, n, c, r)
    ensures c < 2 ==> r != 0
    ensures r != 0 ==> Ready(sel, ts[r])
    ensures ts[0] == ts0[0]
    ensures forall k :: 0 <= k < |ts| ==> ts[k].psp == ts0[k].psp
  {
    if r != 0 {
      assert ts[r] == Visited(sel, ts0[r], Countdown(sel, ts0[r]));
    }
  }

  /** Scan's loop invariant: `i` is the loop counter before the wrap, and
      the scan is at position p of lap `lap`. */
  ghost predicate LoopInv(sel: Selector, ts0: seq<Tcb>, ts: seq<Tcb>, n: nat, c: nat, i: nat, lap: nat, p: nat)
    requires 2 <= n <= |ts0| && c < n
  {
    && 1 <= i <= n && p < n - 1
    && (if i == n then 1 else i) == Idx(n, c, p)
    && (c == 1 ==> i >= 2)
    && (2 <= c ==> lap == 0)
    && Progress(sel, ts0, ts, n, c, lap, p)
  }

  /** One iteration that counts a task down and continues. */
  lemma LoopStep(sel: Selector, ts0: seq<Tcb>, ts: seq<Tcb>, n: nat, c: nat, i: nat, lap: nat, p: nat)
      returns (lap': nat, p': nat)
    requires 2 <= n <= |ts0| && c < n
    requires LoopInv(sel, ts0, ts, n, c, i, lap, p) && i != c
    requires !Ready(sel, ts[if i == n then 1 else i])
    ensures var j := if i == n then 1 else i;
            && LoopInv(sel, ts0, ts[j := Visit(sel, ts[j])], n, c, j + 1, lap', p')
            && Backlog(sel, ts[j := Visit(sel, ts[j])], 1, n) < Backlog(sel, ts, 1, n)
  {
    var j := if i == n then 1 else i;
    assert j == Idx(n, c, p);
    if 2 <= c {
      LastIsCurrent(n, c);
      assert p + 1 < n - 1;
    }
    lap', p' := StepVisit(sel, ts0, ts, n, c, lap, p);
    IdxNext(n, c, p);
    BacklogUpdate(sel, ts, 1, n, j, Visit(sel, ts[j]));
  }

  /** Leaving the loop through `break`. */
  lemma LoopBreak(sel: Selector, ts0: seq<Tcb>, ts: seq<Tcb>, n: nat, c: nat, i: nat, lap: nat, p: nat)
    requires 2 <= n <= |ts0| && c < n
    requires LoopInv(sel, ts0, ts, n, c, i, lap, p) && i != c
    requires Ready(sel, ts[if i == n then 1 else i])
    ensures var j := if i == n then 1 else i;
            && IsChoice(sel, ts0, n, c, j)
            && ScanEffect(sel, ts0, ts, n, c, j)
  {
    if 2 <= c {
      LastIsCurrent(n, c);
    }
    ExitAtReady(sel, ts0, ts, n, c, lap, p);
  }

  /** Leaving the loop through its test `i != current_task`. */
  lemma LoopDone(sel: Selector, ts0: seq<Tcb>, ts: seq<Tcb>, n: nat, c: nat, i: nat, lap: nat, p: nat)
    requires 2 <= n <= |ts0| && c < n
    requires LoopInv(sel, ts0, ts, n, c, i, lap, p) && i == c
    ensures IsChoice(sel, ts0, n, c, 0)
    ensures ScanEffect(sel, ts0, ts, n, c, 0)
  {
    LastIsCurrent(n, c);
    ExitAtCurrent(sel, ts0, ts, n, c);
  }

  /** The loop of `next_task` over the first n entries of the table, from
      current task c: the updated table and the chosen index. */
  method Scan(sel: Selector, ts0: seq<Tcb>, n: nat, c: nat) returns (ts: seq<Tcb>, r: nat)
    requires 2 <= n <= |ts0| && c < n
    ensures r < n
    ensures IsChoice(sel, ts0, n, c, r)
    ensures ScanEffect(sel, ts0, ts, n, c, r)
    ensures c < 2 ==> r != 0
    ensures r != 0 ==> Ready(sel, ts[r])
    ensures ts[0] == ts0[0]
    ensures forall k :: 0 <= k < |ts| ==> ts[k].psp == ts0[k].psp
  {
    ts := ts0;
    r := 0;
    var i: nat := if c == 0 then 1 else c + 1;
    ghost var lap: nat := 0;
    ghost var p: nat := 0;
    while i != c
      invariant |ts| == |ts0|
      invariant LoopInv(sel, ts0, ts, n, c, i, lap, p)
      decreases Backlog(sel, ts, 1, n)
    {
      ghost var i0 := i;
      i := if i == n then 1 else i;
      var j := i;
      if !Ready(sel, ts[j]) {
        lap, p := LoopStep(sel, ts0, ts, n, c, i0, lap, p);
        ts := ts[j := Visit(sel, ts[j])];
        i := i + 1;
        continue;
      }
      LoopBreak(sel, ts0, ts, n, c, i0, lap, p);
      r := j;
      break;
    }
    if r == 0 {
      LoopDone(sel, ts0, ts, n, c, i, lap, p);
    }
    ScanConsequences(sel, ts0, ts, n, c, r);
  }

  /** With every non-idle task ready, the scan picks the task after c in
      the circular order over 1..n-1, and nothing else: the idle task 0 is
      never chosen. */
  lemma AllReadyRotates(sel: Selector, ts: seq<Tcb>, n: nat, c: nat)
    requires 2 <= n <= |ts| && c < n
    requires forall k :: 1 <= k < n ==> Ready(sel, ts[k])
    ensures IsChoice(sel, ts, n, c, Start(n, c))
    ensures forall r :: IsChoice(sel, ts, n, c, r) ==> r == Start(n, c)
  {
    assert Ready(sel, ts[Start(n, c)]);
    assert Pos(n, c, Start(n, c)) == 0;
    forall r | IsChoice(sel, ts, n, c, r)
      ensures r == Start(n, c)
    {
      ChoiceUnique(sel, ts, n, c, r, Start(n, c));
    }
  }

  /** The current index after k scans that all find every non-idle task ready. */
  function Rounds(n: nat, c: nat, k: nat): (r: nat)
    requires 2 <= n && c < n
    ensures r < n
    decreases k
  {
    if k == 0 then c else Start(n, Rounds(n, c, k - 1))
  }

  /** From a non-idle task, k <= n - 1 scans over ready tasks advance k
      places in the circular order over 1..n-1. */
  lemma {:induction false} RoundsRotate(n: nat, c: nat, k: nat)
    requires 2 <= n && 1 <= c < n && k <= n - 1
    ensures Rounds(n, c, k) == if c + k < n then c + k else c + k - (n - 1)
  {
    if k > 0 {
      RoundsRotate(n, c, k - 1);
    }
  }

  /** Round-robin over the non-idle tasks: while they all stay ready, n - 1
      consecutive scans from a non-idle task pick each of 1..n-1 exactly once
      and end where they began. */
  lemma RoundRobin(n: nat, c: nat)
    requires 2 <= n && 1 <= c < n
    ensures Rounds(n, c, n - 1) == c
    ensures forall k1, k2 :: 0 <= k1 < k2 < n - 1 ==> Rounds(n, c, k1) != Rounds(n, c, k2)
    ensures forall k :: 0 <= k < n - 1 ==> 1 <= Rounds(n, c, k)
  {
    RoundsRotate(n, c, n - 1);
    forall k | 0 <= k < n - 1
      ensures Rounds(n, c, k) == if c + k < n then c + k else c + k - (n - 1)
    {
      RoundsRotate(n, c, k);
    }
  }
}

=== FILE: scheduler1.dfy ===
/**
  Variant 1: two tasks, no TCBs. The kernel keeps an array `psp[]` of stack
  pointers, an array `tasks_ptr[]` of entry points, and switches to
  `(current_task + 1) % TASKS` on every tick. Stack tops are byte-address
  macros below the end of RAM, converted to word indices by dividing by 4.
 */
module Scheduler1 {
  import opened Words
  import opened StackFrame
  import opened ContextSwitch

  /** Bytes per task stack. */
  const STACK_SIZE: int := 1024
  const TASKS: nat := 2
  const TASK1_STACK_START: int := RAM_END
  const TASK2_STACK_START: int := RAM_END - 1 * STACK_SIZE
  const SCHEDULER_STACK_START: int := RAM_END - TASKS * STACK_SIZE

  /** The globals `psp[]` and `current_task`. */
  datatype Sched = Sched(psp: seq<Addr>, current: nat)

  /** The static initialisers: both stack tops, task 0 current. */
  function Initial(): Sched
  {
    Sched([WordAddr(TASK1_STACK_START), WordAddr(TASK2_STACK_START)], 0)
  }

  /** The two initial stack tops give disjoint frames, both above the
      scheduler's stack. */
  lemma InitialTops()
    ensures |Initial().psp| == TASKS
    ensures SlabsApart(Initial().psp)
    ensures forall k :: 0 <= k < TASKS ==> WordAddr(SCHEDULER_STACK_START) <= Initial().psp[k] - FRAME_WORDS
  {
  }

  /** `init_task_stack()`: writes each task's frame below `psp[i]` and
      lowers `psp[i]` by the 16 words written. */
  method InitTaskStack(s: Sched, mem: Mem, tasksPtr: seq<Word>) returns (s': Sched, mem': Mem)
    requires |s.psp| == TASKS && |tasksPtr| == TASKS
    requires SlabsApart(s.psp)
    ensures s'.current == s.current && |s'.psp| == TASKS
    ensures forall i :: 0 <= i < TASKS ==> s'.psp[i] == s.psp[i] - FRAME_WORDS && FrameAt(mem', s.psp[i], tasksPtr[i])
    ensures forall a :: OutsideFrames(s.psp, a) ==> (a in mem' <==> a in mem) && (a in mem ==> mem'[a] == mem[a])
  {
    var sps;
    mem', sps := WriteFrames(mem, s.psp, tasksPtr);
    s' := s.(psp := sps);
  }

  /** `main` up to the first tick: `init_task_stack` on the initial table,
      then `init_psp` installs `psp[current_task]`. The handler's first tick
      finds task 0 current, with the stack pointer `init_task_stack` left. */
  method Start(mem: Mem, tasksPtr: seq<Word>) returns (s: Sched, mem': Mem, psp: Addr)
    requires |tasksPtr| == TASKS
    ensures s.current == 0 && |s.psp| == TASKS
    ensures psp == s.psp[0] == WordAddr(TASK1_STACK_START) - FRAME_WORDS
    ensures FrameAt(mem', WordAddr(TASK1_STACK_START), tasksPtr[0])
    ensures FrameAt(mem', WordAddr(TASK2_STACK_START), tasksPtr[1])
    ensures s.psp[1] == WordAddr(TASK2_STACK_START) - FRAME_WORDS
    ensures Mapped(mem', s.psp[1], s.psp[1] + SAVED_WORDS)
  {
    InitialTops();
    s, mem' := InitTaskStack(Initial(), mem, tasksPtr);
    FrameLayout(mem', WordAddr(TASK2_STACK_START), tasksPtr[1]);
    psp := s.psp[s.current];
  }

  /** `next_task()`. */
  function NextTask(c: nat): (r: nat)
    ensures r < TASKS
  {
    (c + 1) % TASKS
  }

  /** The current index after k ticks from c. */
  function Advance(c: nat, k: nat): nat
  {
    if k == 0 then c else NextTask(Advance(c, k - 1))
  }

  lemma {:induction false} AdvanceIsRotation(c: nat, k: nat)
    requires c < TASKS
    ensures Advance(c, k) == (c + k) % TASKS
  {
    if k > 0 {
      AdvanceIsRotation(c, k - 1);
    }
  }

  /** The number of ticks that take index c to index i. */
  function StepsTo(c: nat, i: nat): (k: nat)
    ensures k < TASKS
  {
    (i + TASKS - c) % TASKS
  }

  /** TASKS ticks from any task visit every index exactly once and come back. */
  lemma RoundRobin(c: nat)
    requires c < TASKS
    ensures Advance(c, TASKS) == c
    ensures forall i :: 0 <= i < TASKS ==> Advance(c, StepsTo(c, i)) == i
    ensures forall k1, k2 :: 0 <= k1 < k2 < TASKS ==> Advance(c, k1) != Advance(c, k2)
  {
    AdvanceIsRotation(c, TASKS);
    forall k | 0 <= k < TASKS
      ensures Advance(c, k) == (c + k) % TASKS
    {
      AdvanceIsRotation(c, k);
    }
    forall i | 0 <= i < TASKS
      ensures Advance(c, StepsTo(c, i)) == i
    {
      AdvanceIsRotation(c, StepsTo(c, i));
    }
  }

  /** `set_current_task_psp(psp_addr)`: only `psp[current_task]` changes. */
  function SetCurrentTaskPsp(s: Sched, addr: Addr): (s': Sched)
    requires s.current < |s.psp|
    ensures s'.current == s.current && |s'.psp| == |s.psp|
    ensures s'.psp[s.current] == addr
    ensures forall k :: 0 <= k < |s.psp| && k != s.current ==> s'.psp[k] == s.psp[k]
  {
    s.(psp := s.psp[s.current := addr])
  }

  /** One SysTick: save R4-R11 below the process stack pointer, record it in
      `psp[current_task]`, rotate, restore R4-R11 from the new task's
      `psp[current_task]` and install it. Returns the table, the processor
      and the memory after the handler. */
  function Tick(s: Sched, cpu: Cpu, mem: Mem): (res: (Sched, Cpu, Mem))
    requires |s.psp| == TASKS && s.current < TASKS
    requires WellFormedCpu(cpu)
    requires var n := NextTask(s.current); Mapped(mem, s.psp[n], s.psp[n] + SAVED_WORDS)
    ensures var (s', cpu', mem') := res;
            && |s'.psp| == TASKS
            && s'.current == NextTask(s.current) && s'.current != s.current
            && s'.psp[s.current] == cpu.psp - SAVED_WORDS
            && s'.psp[s'.current] == s.psp[s'.current]
            && Mapped(mem', cpu.psp - SAVED_WORDS, cpu.psp)
            && (forall t :: 0 <= t < SAVED_WORDS ==> mem'[cpu.psp - SAVED_WORDS + t] == cpu.callee[t])
            && SameOutside(mem, mem', cpu.psp - SAVED_WORDS, cpu.psp)
            && Mapped(mem', s'.psp[s'.current], s'.psp[s'.current] + SAVED_WORDS)
            && cpu' == Resume(mem', s'.psp[s'.current])
  {
    var (m, sp) := Save(mem, cpu.psp, cpu.callee);
    var s1 := SetCurrentTaskPsp(s, sp);
    var s2 := s1.(current := NextTask(s1.current));
    (s2, Resume(m, s2.psp[s2.current]), m)
  }

  /** A task switched out by one tick resumes, at the next tick, with the
      R4-R11 and process stack pointer it had, provided the other task left
      the eight saved words alone and saves its own context elsewhere. */
  lemma TwoTicksResume(s: Sched, cpu: Cpu, mem: Mem, cpu2: Cpu, mem2: Mem)
    requires |s.psp| == TASKS && s.current < TASKS
    requires WellFormedCpu(cpu) && WellFormedCpu(cpu2)
    requires var n := NextTask(s.current); Mapped(mem, s.psp[n], s.psp[n] + SAVED_WORDS)
    requires forall a :: cpu.psp - SAVED_WORDS <= a < cpu.psp ==> a in mem2 && a in Tick(s, cpu, mem).2 && mem2[a] == Tick(s, cpu, mem).2[a]
    requires cpu2.psp <= cpu.psp - SAVED_WORDS || cpu.psp <= cpu2.psp - SAVED_WORDS
    ensures var (s1, _, _) := Tick(s, cpu, mem);
            var n := NextTask(s1.current);
            && Mapped(mem2, s1.psp[n], s1.psp[n] + SAVED_WORDS)
            && var (s3, cpu3, _) := Tick(s1, cpu2, mem2);
            && s3.current == s.current
            && cpu3 == cpu
  {
    var (s1, _, m1) := Tick(s, cpu, mem);
    assert NextTask(s1.current) == s.current;
    var (s3, cpu3, m3) := Tick(s1, cpu2, mem2);
    ResumeAfterSave(mem, cpu);
    RestoreReadsOnly(m1, m3, cpu.psp - SAVED_WORDS);
  }
}

=== FILE: scheduler3.dfy ===
/**
  Variant 3: a static table of TASKS tasks (idle, task1, task2) whose stack
  tops are byte-address macros counting down from the end of RAM, one
  STACK_SIZE bytes apart; the scheduler's own stack starts below them.
  Addresses are converted to word indices by dividing by 4. `next_task`
  and the SysTick handler are those of StaticTable.
 */
module Scheduler3 {
  import opened Words
  import opened StackFrame
  import opened ContextSwitch
  import opened TaskTable
  import opened StaticTable
  import Policy

  /** Bytes per task stack. */
  const STACK_SIZE: int := 1024
  const IDLE_STACK_START: int := RAM_END
  const TASK1_STACK_START: int := RAM_END - 1 * STACK_SIZE
  const TASK2_STACK_START: int := RAM_END - 2 * STACK_SIZE
  const SCHEDULER_STACK_START: int := RAM_END - TASKS * STACK_SIZE

  /** The static initialiser of `tasks[]` and `current_task = 1`. */
  function Initial(idle: Word, task1: Word, task2: Word): Sched
  {
    Sched([Tcb(WordAddr(IDLE_STACK_START), Running, 0),
           Tcb(WordAddr(TASK1_STACK_START), Running, 0),
           Tcb(WordAddr(TASK2_STACK_START), Running, 0)],
          [idle, task1, task2], 1)
  }

  function Tops(s: Sched): (tops: seq<Addr>)
    ensures |tops| == |s.tasks|
  {
    seq(|s.tasks|, i requires 0 <= i < |s.tasks| => s.tasks[i].psp)
  }

  /** The initial table: every task RUNNING with no delay, task 1 current,
      stack tops 1024 bytes (256 words) apart, and the three 64-byte frames
      disjoint and above the scheduler's stack. */
  lemma InitialTable(idle: Word, task1: Word, task2: Word)
    ensures var s := Initial(idle, task1, task2);
            && |s.tasks| == TASKS && s.current == 1
            && (forall k :: 0 <= k < TASKS ==> s.tasks[k].state == Running && s.tasks[k].delay == 0)
            && (forall k :: 0 < k < TASKS ==> s.tasks[k - 1].psp - s.tasks[k].psp == STACK_SIZE / 4)
            && SlabsApart(Tops(s))
            && (forall k :: 0 <= k < TASKS ==> WordAddr(SCHEDULER_STACK_START) <= s.tasks[k].psp - FRAME_WORDS)
  {
  }

  /** `init_task_stack()`: writes each task's frame below its current stack
      pointer and lowers that pointer by the 16 words written. */
  method InitTaskStack(s: Sched, mem: Mem) returns (s': Sched, mem': Mem)
    requires |s.tasks| == TASKS && |s.handlers| == TASKS
    requires SlabsApart(Tops(s))
    ensures s'.handlers == s.handlers && s'.current == s.current && |s'.tasks| == TASKS
    ensures forall i :: 0 <= i < TASKS ==>
              && s'.tasks[i] == s.tasks[i].(psp := s.tasks[i].psp - FRAME_WORDS)
              && FrameAt(mem', s.tasks[i].psp, s.handlers[i])
    ensures forall a :: OutsideFrames(Tops(s), a) ==> (a in mem' <==> a in mem) && (a in mem ==> mem'[a] == mem[a])
  {
    var sps;
    mem', sps := WriteFrames(mem, Tops(s), s.handlers);
    var tasks := seq(TASKS, i requires 0 <= i < TASKS => s.tasks[i].(psp := sps[i]));
    s' := s.(tasks := tasks);
  }

  /** `main` up to the first tick: `init_task_stack` on the static table,
      then `init_psp` installs the stack pointer of `tasks[current_task]`.
      Task 1 runs first, on the stack pointer `init_task_stack` left, and
      the other two tasks have a context for the first tick to restore. */
  method Start(mem: Mem, idle: Word, task1: Word, task2: Word) returns (s: Sched, mem': Mem, psp: Addr)
    ensures |s.tasks| == TASKS && s.current == 1
    ensures psp == s.tasks[1].psp == WordAddr(TASK1_STACK_START) - FRAME_WORDS
    ensures s.tasks[0].psp == WordAddr(IDLE_STACK_START) - FRAME_WORDS
    ensures s.tasks[2].psp == WordAddr(TASK2_STACK_START) - FRAME_WORDS
    ensures FrameAt(mem', WordAddr(IDLE_STACK_START), idle)
    ensures FrameAt(mem', WordAddr(TASK1_STACK_START), task1)
    ensures FrameAt(mem', WordAddr(TASK2_STACK_START), task2)
    ensures forall i :: 0 <= i < TASKS ==> s.tasks[i].state == Running && s.tasks[i].delay == 0
    ensures s.handlers == [idle, task1, task2]
    ensures ContextsSaved(s.tasks, TASKS, s.current, mem')
  {
    InitialTable(idle, task1, task2);
    var s0 := Initial(idle, task1, task2);
    s, mem' := InitTaskStack(s0, mem);
    assert FrameAt(mem', s0.tasks[0].psp, s0.handlers[0]);
    assert FrameAt(mem', s0.tasks[1].psp, s0.handlers[1]);
    assert FrameAt(mem', s0.tasks[2].psp, s0.handlers[2]);
    FrameLayout(mem', WordAddr(IDLE_STACK_START), idle);
    FrameLayout(mem', WordAddr(TASK2_STACK_START), task2);
    psp := s.tasks[s.current].psp;
  }

  /** Boot followed by the first SysTick, with task 1's process stack
      pointer at `cpu`. Every task is ready, so the tick switches from task 1
      to task 2, and task 2 starts at its entry point with zero R4-R11 and
      its hardware frame on top of the process stack, provided task 1's
      eight saved words miss task 2's frame. */
  method FirstTick(mem: Mem, idle: Word, task1: Word, task2: Word, cpu: Cpu) returns (s': Sched, cpu': Cpu, mem': Mem)
    requires WellFormedCpu(cpu)
    requires cpu.psp <= WordAddr(TASK2_STACK_START) - FRAME_WORDS || WordAddr(TASK2_STACK_START) + SAVED_WORDS <= cpu.psp
    ensures |s'.tasks| == TASKS && s'.current == 2
    ensures s'.tasks[1].psp == cpu.psp - SAVED_WORDS
    ensures cpu' == Cpu(WordAddr(TASK2_STACK_START) - SAVED_WORDS, seq(SAVED_WORDS, _ => 0))
    ensures Mapped(mem', cpu'.psp, cpu'.psp + SAVED_WORDS)
    ensures PopHardwareFrame(mem', cpu'.psp) == HardwareFrame(0, 0, 0, 0, 0, STACKED_LR, task2, XPSR_THUMB)
  {
    var s, m, psp := Start(mem, idle, task1, task2);
    Policy.AllReadyRotates(Policy.OnState, s.tasks, TASKS, 1);
    s', cpu', mem' := Tick(s, cpu, m);
    assert s'.current == 2;
    assert s'.tasks[2].psp == WordAddr(TASK2_STACK_START) - FRAME_WORDS;
    FrameKept(m, mem', WordAddr(TASK2_STACK_START), task2, cpu.psp - SAVED_WORDS, cpu.psp);
    FirstSwitchIn(mem', WordAddr(TASK2_STACK_START), task2);
  }
}

=== FILE: scheduler4.dfy ===
/**
  Variant 4: a static table of TASKS tasks (idle, task1, task2) whose stacks
  are carved out of a process-stack heap below the linker symbol `_estack`
  (a parameter here: its address is fixed by the linker). Offsets are in
  words. `next_task` and the SysTick handler are those of StaticTable.
 */
module Scheduler4 {
  import opened Words
  import opened StackFrame
  import opened ContextSwitch
  import opened TaskTable
  import opened StaticTable
  import Policy

  const STACK_SIZE: nat := 48
  /** The number of entries the `tasks[] = { 0 }` initialiser gives the table. */
  const DECLARED_TASKS: nat := 1

  function PspHeapStart(estack: Addr): Addr
  {
    estack - 1 * 1024
  }

  function PspHeapEnd(estack: Addr): Addr
  {
    estack - 2 * 1024
  }

  /** `__psp_heap_start - (i + 1) * STACK_SIZE`: the stack top of task i. */
  function SlotTop(estack: Addr, i: nat): Addr
  {
    PspHeapStart(estack) - (i + 1) * STACK_SIZE
  }

  function Tops(estack: Addr): (tops: seq<Addr>)
    ensures |tops| == TASKS
  {
    seq(TASKS, i requires 0 <= i => SlotTop(estack, i))
  }

  /** The three frames are pairwise disjoint and lie inside the process-stack heap. */
  lemma TopsInHeap(estack: Addr)
    ensures SlabsApart(Tops(estack))
    ensures forall i :: 0 <= i < TASKS ==>
              PspHeapEnd(estack) <= Tops(estack)[i] - FRAME_WORDS && Tops(estack)[i] <= PspHeapStart(estack)
  {
  }

  /** `init_task_stack()` against the table as declared: `tasks[] = { 0 }`
      has DECLARED_TASKS entries, but the loop runs once per handler. An
      index inside the table gets its TCB and frame as in InitTaskStack; an
      index past its end is a write outside the array, whose effect C leaves
      undefined, so the model records the index in `overflow` and writes
      nothing. With the three handlers of the source, indices 1 and 2
      overflow. */
  method InitTaskStackAsDeclared(mem: Mem, estack: Addr, entries: seq<Word>)
      returns (tasks: seq<Tcb>, mem': Mem, overflow: seq<nat>)
    ensures |tasks| == DECLARED_TASKS
    ensures |entries| == 0 ==> tasks == [Tcb(0, Running, 0)] && mem' == mem
    ensures |entries| > 0 ==>
              && tasks[0] == Tcb(SlotTop(estack, 0) - FRAME_WORDS, Running, 0)
              && FrameAt(mem', SlotTop(estack, 0), entries[0])
    ensures forall j :: j in overflow <==> DECLARED_TASKS <= j < |entries|
    ensures |entries| == TASKS ==> overflow == [1, 2]
  {
    tasks := [Tcb(0, Running, 0)];
    mem' := mem;
    overflow := [];
    var i := 0;
    while i < |entries|
      invariant 0 <= i <= |entries|
      invariant |tasks| == DECLARED_TASKS
      invariant i == 0 ==> tasks == [Tcb(0, Running, 0)] && mem' == mem
      invariant i > 0 ==>
                  && tasks[0] == Tcb(SlotTop(estack, 0) - FRAME_WORDS, Running, 0)
                  && FrameAt(mem', SlotTop(estack, 0), entries[0])
      invariant |overflow| == (if i > DECLARED_TASKS then i - DECLARED_TASKS else 0)
      invariant forall k :: 0 <= k < |overflow| ==> overflow[k] == DECLARED_TASKS + k
      invariant forall j :: j in overflow <==> DECLARED_TASKS <= j < i
    {
      if i < |tasks| {
        var sp;
        mem', sp := WriteFrame(mem', SlotTop(estack, i), entries[i]);
        tasks := tasks[i := Tcb(sp, Running, 0)];
      } else {
        overflow := overflow + [i];
      }
      i := i + 1;
    }
    if |entries| == TASKS {
      assert overflow[0] == 1 && overflow[1] == 2;
    }
  }

  /** `init_task_stack()` on a table of TASKS entries: each task gets its
      stack top, RUNNING, delay 0 and its handler, then its frame, and its
      stack pointer is left on the frame's lowest word. `current_task`
      keeps its initial value 0. */
  method InitTaskStack(mem: Mem, estack: Addr, entries: seq<Word>) returns (s: Sched, mem': Mem)
    requires |entries| == TASKS
    ensures |s.tasks| == TASKS && s.handlers == entries && s.current == 0
    ensures forall i :: 0 <= i < TASKS ==>
              && s.tasks[i] == Tcb(SlotTop(estack, i) - FRAME_WORDS, Running, 0)
              && FrameAt(mem', SlotTop(estack, i), entries[i])
    ensures forall a :: OutsideFrames(Tops(estack), a) ==> (a in mem' <==> a in mem) && (a in mem ==> mem'[a] == mem[a])
    ensures ContextsSaved(s.tasks, TASKS, s.current, mem')
  {
    TopsInHeap(estack);
    var sps;
    mem', sps := WriteFrames(mem, Tops(estack), entries);
    var tasks := seq(TASKS, i requires 0 <= i < TASKS => Tcb(sps[i], Running, 0));
    s := Sched(tasks, entries, 0);
    forall k | 0 <= k < TASKS
      ensures Mapped(mem', s.tasks[k].psp, s.tasks[k].psp + SAVED_WORDS)
    {
      FrameLayout(mem', SlotTop(estack, k), entries[k]);
    }
  }

  /** `scheduler_init` up to the idle call: `init_task_stack`, then
      `init_psp` installs the idle task's stack pointer as the process stack
      pointer. The idle task runs first, on its frame's lowest word. */
  method Start(mem: Mem, estack: Addr, entries: seq<Word>) returns (s: Sched, mem': Mem, psp: Addr)
    requires |entries| == TASKS
    ensures |s.tasks| == TASKS && s.current == 0
    ensures psp == s.tasks[0].psp == SlotTop(estack, 0) - FRAME_WORDS
    ensures s.handlers == entries
    ensures forall i :: 0 <= i < TASKS ==>
              s.tasks[i].psp == SlotTop(estack, i) - FRAME_WORDS && FrameAt(mem', SlotTop(estack, i), entries[i])
    ensures forall i :: 0 <= i < TASKS ==> s.tasks[i].state == Running && s.tasks[i].delay == 0
    ensures ContextsSaved(s.tasks, TASKS, s.current, mem')
  {
    s, mem' := InitTaskStack(mem, estack, entries);
    psp := s.tasks[s.current].psp;
  }

  /** `scheduler_init` followed by the first SysTick, with the idle task's
      process stack pointer at `cpu`. Every task is ready, so the tick
      switches from idle to task 1, and task 1 starts at its entry point
      with zero R4-R11 and its hardware frame on top of the process stack,
      provided idle's eight saved words miss task 1's frame. */
  method FirstTick(mem: Mem, estack: Addr, entries: seq<Word>, cpu: Cpu) returns (s': Sched, cpu': Cpu, mem': Mem)
    requires |entries| == TASKS && WellFormedCpu(cpu)
    requires cpu.psp <= SlotTop(estack, 1) - FRAME_WORDS || SlotTop(estack, 1) + SAVED_WORDS <= cpu.psp
    ensures |s'.tasks| == TASKS && s'.current == 1
    ensures s'.tasks[0].psp == cpu.psp - SAVED_WORDS
    ensures cpu' == Cpu(SlotTop(estack, 1) - SAVED_WORDS, seq(SAVED_WORDS, _ => 0))
    ensures Mapped(mem', cpu'.psp, cpu'.psp + SAVED_WORDS)
    ensures PopHardwareFrame(mem', cpu'.psp) == HardwareFrame(0, 0, 0, 0, 0, STACKED_LR, entries[1], XPSR_THUMB)
  {
    var s, m, psp := Start(mem, estack, entries);
    Policy.AllReadyRotates(Policy.OnState, s.tasks, TASKS, 0);
    s', cpu', mem' := Tick(s, cpu, m);
    assert s'.current == 1;
    assert s'.tasks[1].psp == SlotTop(estack, 1) - FRAME_WORDS;
    FrameKept(m, mem', SlotTop(estack, 1), entries[1], cpu.psp - SAVED_WORDS, cpu.psp);
    FirstSwitchIn(mem', SlotTop(estack, 1), entries[1]);
  }
}

=== FILE: scheduler5.dfy ===
/**
  Variant 5: tasks are registered at run time with `task_start`, up to
  MAX_TASKS of them, and `next_task` selects on the delay counter.

  Task slot k has its stack top STACK_SIZE words below the previous one,
  counting down from `__psp_heap_start`, which lies KB(1) words below the
  linker symbol `_estack`; `__psp_heap_end` lies KB(2) words below it. The
  address of `_estack` is fixed by the linker and is a parameter here.
 */
module Scheduler5 {
  import opened Words
  import opened StackFrame
  import opened ContextSwitch
  import opened TaskTable
  import opened Policy

  const MAX_TASKS: nat := 16
  const STACK_SIZE: nat := 48
  /** `(uint8_t)-1`, returned when the table is full. */
  const TASK_START_ERROR: nat := 255

  /** The `KB(size)` macro: size * 1024 rounded down to a multiple of 8. */
  function KB(size: nat): nat
  {
    ((size * 1024) / 8) * 8
  }

  function PspHeapStart(estack: Addr): Addr
  {
    estack - KB(1)
  }

  function PspHeapEnd(estack: Addr): Addr
  {
    estack - KB(2)
  }

  /** `__psp_heap_start - index * STACK_SIZE`: the stack top of slot k. */
  function SlotTop(estack: Addr, k: nat): Addr
  {
    PspHeapStart(estack) - k * STACK_SIZE
  }

  /** The globals `tasks`, `no_of_tasks` and `current_task`. */
  datatype Sched = Sched(tasks: seq<Tcb>, count: nat, current: nat)

  /** A zero-initialised `tcb_t`: null stack pointer, STATE_RUNNING (0), no delay. */
  const EMPTY_TCB: Tcb := Tcb(0, Running, 0)

  /** The table before any registration. */
  function Boot(): (s: Sched)
    ensures Valid(s) && s.count == 0
  {
    Sched(seq(MAX_TASKS, _ => EMPTY_TCB), 0, 0)
  }

  /** The table has its declared size, the current index is a registered
      task (or 0 before the first registration), and slots not yet handed
      out are still zero. */
  ghost predicate Valid(s: Sched)
  {
    && |s.tasks| == MAX_TASKS
    && s.count <= MAX_TASKS
    && (s.current < s.count || s.current == 0)
    && forall k :: s.count <= k < MAX_TASKS ==> s.tasks[k] == EMPTY_TCB
  }

  /** Every slot's 16-word frame lies inside the process-stack heap. */
  lemma SlotInHeap(estack: Addr, k: nat)
    requires k < MAX_TASKS
    ensures PspHeapEnd(estack) <= SlotTop(estack, k) - FRAME_WORDS
    ensures SlotTop(estack, k) <= PspHeapStart(estack)
  {
  }

  /** Frames of distinct slots never overlap. */
  lemma SlotsApart(estack: Addr, k1: nat, k2: nat)
    requires k1 != k2
    ensures FramesApart(SlotTop(estack, k1), SlotTop(estack, k2))
  {
  }

  /** `task_start(handler)`: claims the next free slot, writes its initial
      frame and marks it RUNNING; fails with 255 when all slots are taken.
      The delay field is not written: a fresh slot keeps its zero delay. */
  method TaskStart(s: Sched, mem: Mem, estack: Addr, handler: Word) returns (s': Sched, mem': Mem, index: nat)
    requires |s.tasks| == MAX_TASKS
    ensures s.count >= MAX_TASKS ==> index == TASK_START_ERROR && s' == s && mem' == mem
    ensures s.count < MAX_TASKS ==>
              && index == s.count
              && s'.count == s.count + 1
              && s'.current == s.current
              && |s'.tasks| == MAX_TASKS
              && s'.tasks[index] == s.tasks[index].(psp := SlotTop(estack, index) - FRAME_WORDS, state := Running)
              && (forall k :: 0 <= k < MAX_TASKS && k != index ==> s'.tasks[k] == s.tasks[k])
              && FrameAt(mem', SlotTop(estack, index), handler)
              && SameOutside(mem, mem', SlotTop(estack, index) - FRAME_WORDS, SlotTop(estack, index))
    ensures Valid(s) && s.count < MAX_TASKS ==> Valid(s') && s'.tasks[index] == Tcb(SlotTop(estack, index) - FRAME_WORDS, Running, 0)
  {
    if s.count >= MAX_TASKS {
      return s, mem, TASK_START_ERROR;
    }
    index := s.count;
    var sp;
    mem', sp := WriteFrame(mem, SlotTop(estack, index), handler);
    var t := s.tasks[index].(psp := sp, state := Running);
    s' := Sched(s.tasks[index := t], s.count + 1, s.current);
  }

  /** `scheduler_init` followed by the two `task_start` calls of `main`, and
      the stack pointer `init_psp` installs: idle, task1 and task2 get slots
      0, 1 and 2, and the process stack starts on the idle task's frame. */
  method RegisterTasks(mem: Mem, estack: Addr, idle: Word, task1: Word, task2: Word)
      returns (s: Sched, mem': Mem, psp: Addr)
    ensures Valid(s) && s.count == 3 && s.current == 0
    ensures forall k :: 0 <= k < 3 ==> s.tasks[k] == Tcb(SlotTop(estack, k) - FRAME_WORDS, Running, 0)
    ensures FrameAt(mem', SlotTop(estack, 0), idle)
    ensures FrameAt(mem', SlotTop(estack, 1), task1)
    ensures FrameAt(mem', SlotTop(estack, 2), task2)
    ensures psp == s.tasks[0].psp
    ensures ContextsSaved(s.tasks, s.count, s.current, mem')
  {
    var i0, i1, i2;
    var m0, m1;
    s, m0, i0 := TaskStart(Boot(), mem, estack, idle);
    s, m1, i1 := TaskStart(s, m0, estack, task1);
    s, mem', i2 := TaskStart(s, m1, estack, task2);
    SlotsApart(estack, 0, 1);
    SlotsApart(estack, 0, 2);
    SlotsApart(estack, 1, 2);
    FrameKept(m0, m1, SlotTop(estack, 0), idle, SlotTop(estack, 1) - FRAME_WORDS, SlotTop(estack, 1));
    FrameKept(m1, mem', SlotTop(estack, 0), idle, SlotTop(estack, 2) - FRAME_WORDS, SlotTop(estack, 2));
    FrameKept(m1, mem', SlotTop(estack, 1), task1, SlotTop(estack, 2) - FRAME_WORDS, SlotTop(estack, 2));
    FrameLayout(mem', SlotTop(estack, 1), task1);
    FrameLayout(mem', SlotTop(estack, 2), task2);
    psp := s.tasks[0].psp;
  }

  /** `next_task()`: a lone task resumes as index 0; otherwise the shared
      scan over the registered tasks, testing `delay > 0`. */
  method NextTask(s: Sched) returns (s': Sched)
    requires |s.tasks| == MAX_TASKS && 1 <= s.count <= MAX_TASKS && s.current < s.count
    ensures s'.count == s.count && |s'.tasks| == MAX_TASKS
    ensures s'.current < s.count
    ensures s.count == 1 ==> s' == s.(current := 0)
    ensures s.count >= 2 ==>
              && IsChoice(OnDelay, s.tasks, s.count, s.current, s'.current)
              && ScanEffect(OnDelay, s.tasks, s'.tasks, s.count, s.current, s'.current)
    ensures s.count >= 2 && s.current < 2 ==> s'.current != 0
    ensures s.count == 2 && s.current == 1 ==> s'.current == 1 && s'.tasks[1].delay == 0
    ensures s'.current != 0 ==> s'.tasks[s'.current].delay == 0
    ensures s'.tasks[0] == s.tasks[0]
    ensures forall k :: 0 <= k < MAX_TASKS ==> s'.tasks[k].psp == s.tasks[k].psp
    ensures Valid(s) ==> Valid(s')
  {
    if s.count == 1 {
      return s.(current := 0);
    }
    var ts, next := Scan(OnDelay, s.tasks, s.count, s.current);
    s' := Sched(ts, s.count, next);
  }

  /** Recording a stack pointer in a registered task's TCB keeps the table
      invariant. */
  lemma ValidAfterPsp(s: Sched, p: Addr)
    requires Valid(s) && s.current < s.count
    ensures Valid(s.(tasks := s.tasks[s.current := s.tasks[s.current].(psp := p)]))
  {
    var ts := s.tasks[s.current := s.tasks[s.current].(psp := p)];
    forall k | s.count <= k < MAX_TASKS
      ensures ts[k] == EMPTY_TCB
    {
      assert ts[k] == s.tasks[k];
    }
  }

  /** The table half of the handler, `bl set_current_task_psp` then
      `bl next_task`: record `p` as the outgoing task's stack pointer and
      pick the next task. */
  method RecordAndSchedule(s: Sched, p: Addr) returns (s': Sched)
    requires |s.tasks| == MAX_TASKS && 1 <= s.count <= MAX_TASKS && s.current < s.count
    ensures s'.count == s.count && |s'.tasks| == MAX_TASKS && s'.current < s'.count
    ensures s'.tasks[s.current].psp == p
    ensures forall k :: 0 <= k < MAX_TASKS && k != s.current ==> s'.tasks[k].psp == s.tasks[k].psp
    ensures s.count >= 2 ==> IsChoice(OnDelay, s.tasks, s.count, s.current, s'.current)
    ensures s.count >= 2 ==>
              ScanEffect(OnDelay, s.tasks[s.current := s.tasks[s.current].(psp := p)],
                         s'.tasks, s.count, s.current, s'.current)
    ensures s.count == 1 ==> s'.current == 0 && s'.tasks == s.tasks[s.current := s.tasks[s.current].(psp := p)]
    ensures Valid(s) ==> Valid(s')
  {
    var ts1 := SetCurrentTaskPsp(s.tasks, s.current, p);
    if s.count >= 2 {
      ChoiceIgnoresPsp(OnDelay, ts1, s.tasks, s.count, s.current);
    }
    if Valid(s) {
      ValidAfterPsp(s, p);
    }
    s' := NextTask(s.(tasks := ts1));
  }

  /** One SysTick: save R4-R11 below the process stack pointer, record it
      in the outgoing TCB, pick the next task, restore its R4-R11 and
      install its stack pointer. */
  method Tick(s: Sched, cpu: Cpu, mem: Mem) returns (s': Sched, cpu': Cpu, mem': Mem)
    requires |s.tasks| == MAX_TASKS && 1 <= s.count <= MAX_TASKS && s.current < s.count
    requires WellFormedCpu(cpu)
    requires ContextsSaved(s.tasks, s.count, s.current, mem)
    ensures s'.count == s.count && |s'.tasks| == MAX_TASKS && s'.current < s'.count
    ensures s'.tasks[s.current].psp == cpu.psp - SAVED_WORDS
    ensures Mapped(mem', cpu.psp - SAVED_WORDS, cpu.psp)
    ensures forall t :: 0 <= t < SAVED_WORDS ==> mem'[cpu.psp - SAVED_WORDS + t] == cpu.callee[t]
    ensures SameOutside(mem, mem', cpu.psp - SAVED_WORDS, cpu.psp)
    ensures s.count >= 2 ==> IsChoice(OnDelay, s.tasks, s.count, s.current, s'.current)
    ensures s.count == 1 ==> s'.current == 0
    ensures ContextsSaved(s'.tasks, s'.count, s'.current, mem')
    ensures Mapped(mem', s'.tasks[s'.current].psp, s'.tasks[s'.current].psp + SAVED_WORDS)
    ensures cpu' == Resume(mem', s'.tasks[s'.current].psp)
    ensures s'.current == s.current ==> cpu' == cpu
    ensures forall k :: 0 <= k < MAX_TASKS && k != s.current ==> s'.tasks[k].psp == s.tasks[k].psp
    ensures s.count >= 2 ==>
              ScanEffect(OnDelay, s.tasks[s.current := s.tasks[s.current].(psp := cpu.psp - SAVED_WORDS)],
                         s'.tasks, s.count, s.current, s'.current)
    ensures s.count == 1 ==> s'.tasks == s.tasks[s.current := s.tasks[s.current].(psp := cpu.psp - SAVED_WORDS)]
    ensures Valid(s) ==> Valid(s')
  {
    var (ts1, m) := SwitchOut(s.tasks, s.count, s.current, cpu, mem);
    s' := RecordAndSchedule(s, cpu.psp - SAVED_WORDS);
    mem' := m;
    ContextsKept(ts1, s'.tasks, s.count, s'.current, mem');
    cpu' := Resume(mem', GetCurrentTaskPsp(s'.tasks, s'.current));
  }

  /** Two SysTicks with the chosen task running in between. The running
      task may write any memory except the eight words the first tick saved
      (`writes`), and leaves the processor as `cpu2`, whose own save area
      does not overlap them. A task the first tick switched out and the
      second tick chooses again resumes with exactly the R4-R11 and process
      stack pointer it had before the first tick. */
  method TwoTicks(s: Sched, cpu: Cpu, mem: Mem, writes: Mem, cpu2: Cpu)
      returns (s1: Sched, s2: Sched, cpu3: Cpu, mem3: Mem)
    requires |s.tasks| == MAX_TASKS && 1 <= s.count <= MAX_TASKS && s.current < s.count
    requires WellFormedCpu(cpu) && WellFormedCpu(cpu2)
    requires ContextsSaved(s.tasks, s.count, s.current, mem)
    requires forall a :: a in writes ==> !(cpu.psp - SAVED_WORDS <= a < cpu.psp)
    requires cpu2.psp <= cpu.psp - SAVED_WORDS || cpu.psp <= cpu2.psp - SAVED_WORDS
    ensures s.count >= 2 ==> IsChoice(OnDelay, s.tasks, s.count, s.current, s1.current)
    ensures s1.current != s.current && s2.current == s.current ==> cpu3 == cpu
  {
    var cpu1, mem1;
    s1, cpu1, mem1 := Tick(s, cpu, mem);
    var mem2 := mem1 + writes;
    s2, cpu3, mem3 := Tick(s1, cpu2, mem2);
    if s1.current != s.current && s2.current == s.current {
      ResumeFromSaved(mem3, cpu);
    }
  }
}

=== FILE: static_table.dfy ===
/**
  The static three-task table of variants 3 and 4 (idle, task1, task2), with
  the `next_task` and `SysTick_Handler` the two variants share: the two
  copies differ only in the name of the delay field and in where the
  handler's `pop {LR}` sits, neither of which changes what they compute.
  Only their stack placement and initialisation differ; those live in
  Scheduler3 and Scheduler4.
 */
module StaticTable {
  import opened Words
  import opened StackFrame
  import opened ContextSwitch
  import opened TaskTable
  import opened Policy

  const TASKS: nat := 3

  /** The globals `tasks` (handlers kept beside the TCBs) and `current_task`. */
  datatype Sched = Sched(tasks: seq<Tcb>, handlers: seq<Word>, current: nat)

  /** `next_task()`: the shared scan over the three tasks, testing the state.
      From task 2 the scan looks only at task 1: a RUNNING task 1 is chosen
      and nothing changes; otherwise task 1 is counted down once and the
      idle task is chosen. */
  method NextTask(s: Sched) returns (s': Sched)
    requires |s.tasks| == TASKS && s.current < TASKS
    ensures |s'.tasks| == TASKS && s'.handlers == s.handlers
    ensures s'.current < TASKS
    ensures IsChoice(OnState, s.tasks, TASKS, s.current, s'.current)
    ensures ScanEffect(OnState, s.tasks, s'.tasks, TASKS, s.current, s'.current)
    ensures s'.current != 0 ==> s'.tasks[s'.current].state == Running
    ensures s.current < 2 ==> s'.current != 0
    ensures s.current == 2 ==>
              && s'.tasks[0] == s.tasks[0] && s'.tasks[2] == s.tasks[2]
              && if s.tasks[1].state == Running then s'.current == 1 && s'.tasks == s.tasks
                 else s'.current == 0 && s'.tasks[1] == Visit(OnState, s.tasks[1])
    ensures forall k :: 0 <= k < TASKS ==> s'.tasks[k].psp == s.tasks[k].psp
  {
    var ts, next := Scan(OnState, s.tasks, TASKS, s.current);
    s' := Sched(ts, s.handlers, next);
    if s.current == 2 {
      assert Pos(TASKS, 2, 1) == 0 && Pos(TASKS, 2, 2) == 1;
      if s.tasks[1].state == Running {
        assert s'.tasks == s.tasks;
      }
    }
  }

  /** The table half of the handler, `bl set_current_task_psp` then
      `bl next_task`: record `p` as the outgoing task's stack pointer and
      pick the next task. */
  method RecordAndSchedule(s: Sched, p: Addr) returns (s': Sched)
    requires |s.tasks| == TASKS && s.current < TASKS
    ensures |s'.tasks| == TASKS && s'.current < TASKS && s'.handlers == s.handlers
    ensures s'.tasks[s.current].psp == p
    ensures forall k :: 0 <= k < TASKS && k != s.current ==> s'.tasks[k].psp == s.tasks[k].psp
    ensures IsChoice(OnState, s.tasks, TASKS, s.current, s'.current)
    ensures ScanEffect(OnState, s.tasks[s.current := s.tasks[s.current].(psp := p)],
                       s'.tasks, TASKS, s.current, s'.current)
  {
    var ts1 := SetCurrentTaskPsp(s.tasks, s.current, p);
    ChoiceIgnoresPsp(OnState, ts1, s.tasks, TASKS, s.current);
    s' := NextTask(s.(tasks := ts1));
  }

  /** One SysTick: save R4-R11 below the process stack pointer, record it
      in the outgoing TCB, pick the next task, restore its R4-R11 and
      install its stack pointer. */
  method Tick(s: Sched, cpu: Cpu, mem: Mem) returns (s': Sched, cpu': Cpu, mem': Mem)
    requires |s.tasks| == TASKS && s.current < TASKS
    requires WellFormedCpu(cpu)
    requires ContextsSaved(s.tasks, TASKS, s.current, mem)
    ensures |s'.tasks| == TASKS && s'.current < TASKS && s'.handlers == s.handlers
    ensures s'.tasks[s.current].psp == cpu.psp - SAVED_WORDS
    ensures Mapped(mem', cpu.psp - SAVED_WORDS, cpu.psp)
    ensures forall t :: 0 <= t < SAVED_WORDS ==> mem'[cpu.psp - SAVED_WORDS + t] == cpu.callee[t]
    ensures SameOutside(mem, mem', cpu.psp - SAVED_WORDS, cpu.psp)
    ensures IsChoice(OnState, s.tasks, TASKS, s.current, s'.current)
    ensures ContextsSaved(s'.tasks, TASKS, s'.current, mem')
    ensures Mapped(mem', s'.tasks[s'.current].psp, s'.tasks[s'.current].psp + SAVED_WORDS)
    ensures cpu' == Resume(mem', s'.tasks[s'.current].psp)
    ensures s'.current == s.current ==> cpu' == cpu
    ensures forall k :: 0 <= k < TASKS && k != s.current ==> s'.tasks[k].psp == s.tasks[k].psp
    ensures ScanEffect(OnState, s.tasks[s.current := s.tasks[s.current].(psp := cpu.psp - SAVED_WORDS)],
                       s'.tasks, TASKS, s.current, s'.current)
  {
    var (ts1, m) := SwitchOut(s.tasks, TASKS, s.current, cpu, mem);
    s' := RecordAndSchedule(s, cpu.psp - SAVED_WORDS);
    mem' := m;
    ContextsKept(ts1, s'.tasks, TASKS, s'.current, mem');
    cpu' := Resume(mem', GetCurrentTaskPsp(s'.tasks, s'.current));
  }

  /** Two SysTicks with the chosen task running in between. The running
      task may write any memory except the eight words the first tick saved
      (`writes`), and leaves the processor as `cpu2`, whose own save area
      does not overlap them. A task the first tick switched out and the
      second tick chooses again resumes with exactly the R4-R11 and process
      stack pointer it had before the first tick. */
  method TwoTicks(s: Sched, cpu: Cpu, mem: Mem, writes: Mem, cpu2: Cpu)
      returns (s1: Sched, s2: Sched, cpu3: Cpu, mem3: Mem)
    requires |s.tasks| == TASKS && s.current < TASKS
    requires WellFormedCpu(cpu) && WellFormedCpu(cpu2)
    requires ContextsSaved(s.tasks, TASKS, s.current, mem)
    requires forall a :: a in writes ==> !(cpu.psp - SAVED_WORDS <= a < cpu.psp)
    requires cpu2.psp <= cpu.psp - SAVED_WORDS || cpu.psp <= cpu2.psp - SAVED_WORDS
    ensures IsChoice(OnState, s.tasks, TASKS, s.current, s1.current)
    ensures s1.current != s.current && s2.current == s.current ==> cpu3 == cpu
  {
    var cpu1, mem1;
    s1, cpu1, mem1 := Tick(s, cpu, mem);
    var mem2 := mem1 + writes;
    s2, cpu3, mem3 := Tick(s1, cpu2, mem2);
    if s1.current != s.current && s2.current == s.current {
      ResumeFromSaved(mem3, cpu);
    }
  }
}

=== FILE: tasks.dfy ===
/**
  The task control block and the three small operations every TCB-based
  variant (3, 4 and 5) defines identically: `delay`, `set_current_task_psp`
  and `get_current_task_psp`. Variant 3 calls the delay field `delay_count`.
 */
module TaskTable {
  import opened Words

  datatype TaskState = Running | Blocked

  /** `tcb_t` without the handler field: stack pointer, state, delay counter. */
  datatype Tcb = Tcb(psp: Addr, state: TaskState, delay: Word)

  /** `delay(msec)`: the current task marks itself blocked for `msec` ticks.
      It does not yield; the next tick acts on it. */
  function Delay(ts: seq<Tcb>, current: nat, msec: Word): (ts': seq<Tcb>)
    requires current < |ts|
    ensures |ts'| == |ts|
    ensures ts'[current].delay == msec && ts'[current].state == Blocked
    ensures ts'[current].psp == ts[current].psp
    ensures forall k :: 0 <= k < |ts| && k != current ==> ts'[k] == ts[k]
  {
    ts[current := ts[current].(delay := msec, state := Blocked)]
  }

  /** `set_current_task_psp(psp_addr)`: records the stack pointer of the current task. */
  function SetCurrentTaskPsp(ts: seq<Tcb>, current: nat, addr: Addr): (ts': seq<Tcb>)
    requires current < |ts|
    ensures |ts'| == |ts|
    ensures ts'[current].psp == addr
    ensures ts'[current].state == ts[current].state && ts'[current].delay == ts[current].delay
    ensures forall k :: 0 <= k < |ts| && k != current ==> ts'[k] == ts[k]
  {
    ts[current := ts[current].(psp := addr)]
  }

  /** `get_current_task_psp()`. */
  function GetCurrentTaskPsp(ts: seq<Tcb>, current: nat): Addr
    requires current < |ts|
  {
    ts[current].psp
  }

  /** Reading back after a set gives the stored address; setting what was
      read changes nothing. */
  lemma PspRoundTrip(ts: seq<Tcb>, current: nat, addr: Addr)
    requires current < |ts|
    ensures GetCurrentTaskPsp(SetCurrentTaskPsp(ts, current, addr), current) == addr
    ensures SetCurrentTaskPsp(ts, current, GetCurrentTaskPsp(ts, current)) == ts
  {
  }
}

=== FILE: trap.dfy ===
/**
  The memory effect of `SysTick_Handler`, the only code that moves register
  state between tasks. The instruction sequence itself (`mrs`, `msr`, `bl`,
  `bx`) is hardware; what the model keeps is its effect on the process stack:
  `stmdb R0!, {R4-R11}` stores the eight callee-saved registers just below
  the process stack pointer, R4 at the lowest address, and leaves R0 on R4;
  `ldmia R0!, {R4-R11}` loads them back from the stored address upwards and
  leaves R0 eight words higher.
 */
module ContextSwitch {
  import opened Words
  import opened StackFrame
  import opened TaskTable

  /** The process stack pointer and R4-R11 of the task on the processor. */
  datatype Cpu = Cpu(psp: Addr, callee: seq<Word>)

  predicate WellFormedCpu(cpu: Cpu)
  {
    |cpu.callee| == SAVED_WORDS
  }

  /** `stmdb R0!, {R4-R11}` with R0 = `sp`: the new memory and the written-back R0. */
  function Save(mem: Mem, sp: Addr, regs: seq<Word>): (res: (Mem, Addr))
    requires |regs| == SAVED_WORDS
    ensures res.1 == sp - SAVED_WORDS
    ensures Mapped(res.0, res.1, sp)
    ensures forall t :: 0 <= t < SAVED_WORDS ==> res.0[res.1 + t] == regs[t]
    ensures SameOutside(mem, res.0, res.1, sp)
  {
    var base := sp - SAVED_WORDS;
    (Store(mem, base, regs), base)
  }

  /** `ldmia R0!, {R4-R11}` with R0 = `sp`: the loaded R4-R11 and the written-back R0. */
  function Restore(mem: Mem, sp: Addr): (res: (seq<Word>, Addr))
    requires Mapped(mem, sp, sp + SAVED_WORDS)
    ensures |res.0| == SAVED_WORDS
    ensures res.1 == sp + SAVED_WORDS
  {
    (Slice(mem, sp, sp + SAVED_WORDS), sp + SAVED_WORDS)
  }

  /** Restoring from the address the save left in R0 gives back the saved
      registers and the process stack pointer the trap started from. */
  lemma RestoreAfterSave(mem: Mem, sp: Addr, regs: seq<Word>)
    requires |regs| == SAVED_WORDS
    ensures Mapped(Save(mem, sp, regs).0, sp - SAVED_WORDS, sp)
    ensures Restore(Save(mem, sp, regs).0, sp - SAVED_WORDS) == (regs, sp)
  {
    var (m, base) := Save(mem, sp, regs);
    var loaded := Restore(m, base).0;
    forall t | 0 <= t < SAVED_WORDS
      ensures loaded[t] == regs[t]
    {
      assert loaded[t] == m[base + t];
    }
    assert loaded == regs;
  }

  /** The restore reads only the eight words at `sp`. */
  lemma RestoreReadsOnly(mem: Mem, mem': Mem, sp: Addr)
    requires Mapped(mem, sp, sp + SAVED_WORDS)
    requires forall a :: sp <= a < sp + SAVED_WORDS ==> a in mem' && mem'[a] == mem[a]
    ensures Mapped(mem', sp, sp + SAVED_WORDS)
    ensures Restore(mem', sp) == Restore(mem, sp)
  {
    var r := Restore(mem, sp).0;
    var r' := Restore(mem', sp).0;
    forall t | 0 <= t < SAVED_WORDS
      ensures r'[t] == r[t]
    {
      assert r'[t] == mem'[sp + t];
    }
    assert r' == r;
  }

  /** The first switch-in of a task: restoring from the stack pointer the
      frame synthesiser returned yields R4-R11 all zero, and leaves the
      process stack pointer on a hardware frame whose return address is the
      entry point, with xPSR 0x01000000 and 0xFFFFFFFD in the LR slot. */
  lemma FirstSwitchIn(mem: Mem, top: Addr, handler: Word)
    requires FrameAt(mem, top, handler)
    ensures Mapped(mem, top - FRAME_WORDS, top)
    ensures Restore(mem, top - FRAME_WORDS) == (seq(SAVED_WORDS, _ => 0), top - SAVED_WORDS)
    ensures PopHardwareFrame(mem, top - SAVED_WORDS)
         == HardwareFrame(0, 0, 0, 0, 0, STACKED_LR, handler, XPSR_THUMB)
  {
    FrameLayout(mem, top, handler);
    var r := Restore(mem, top - FRAME_WORDS).0;
    forall t | 0 <= t < SAVED_WORDS
      ensures r[t] == 0
    {
      assert r[t] == mem[top - FRAME_WORDS + t];
    }
    assert r == seq(SAVED_WORDS, _ => 0);
  }

  /** The second half of the trap for the incoming task whose stored stack
      pointer is `sp`: `ldmia` then `msr PSP, R0`. */
  function Resume(mem: Mem, sp: Addr): (cpu: Cpu)
    requires Mapped(mem, sp, sp + SAVED_WORDS)
    ensures WellFormedCpu(cpu)
  {
    var (regs, psp) := Restore(mem, sp);
    Cpu(psp, regs)
  }

  /** A task switched out and switched back in from the stored stack
      pointer resumes with the same R4-R11 and process stack pointer. */
  lemma ResumeAfterSave(mem: Mem, cpu: Cpu)
    requires WellFormedCpu(cpu)
    ensures Mapped(Save(mem, cpu.psp, cpu.callee).0, cpu.psp - SAVED_WORDS, cpu.psp)
    ensures Resume(Save(mem, cpu.psp, cpu.callee).0, cpu.psp - SAVED_WORDS) == cpu
  {
    RestoreAfterSave(mem, cpu.psp, cpu.callee);
  }

  /** Resuming from eight words that still hold a task's R4-R11, stored
      just below its stack pointer, gives back that task's processor state,
      whatever else the memory holds. */
  lemma ResumeFromSaved(mem: Mem, cpu: Cpu)
    requires WellFormedCpu(cpu)
    requires Mapped(mem, cpu.psp - SAVED_WORDS, cpu.psp)
    requires forall t :: 0 <= t < SAVED_WORDS ==> mem[cpu.psp - SAVED_WORDS + t] == cpu.callee[t]
    ensures Resume(mem, cpu.psp - SAVED_WORDS) == cpu
  {
    var r := Restore(mem, cpu.psp - SAVED_WORDS).0;
    forall t | 0 <= t < SAVED_WORDS
      ensures r[t] == cpu.callee[t]
    {
      assert r[t] == mem[cpu.psp - SAVED_WORDS + t];
    }
    assert r == cpu.callee;
  }

  /** Every one of the first n tasks other than the running one has a saved
      context at its stored stack pointer. */
  ghost predicate ContextsSaved(ts: seq<Tcb>, n: nat, current: nat, mem: Mem)
    requires n <= |ts|
  {
    forall k :: 0 <= k < n && k != current ==> Mapped(mem, ts[k].psp, ts[k].psp + SAVED_WORDS)
  }

  /** The first half of `SysTick_Handler` in the TCB variants: save R4-R11
      below the process stack pointer and record the lowered pointer in the
      current TCB. Afterwards every one of the first n tasks, the outgoing
      one included, has a context to resume from, and the outgoing one's is
      exactly the processor state it left. */
  function SwitchOut(ts: seq<Tcb>, n: nat, current: nat, cpu: Cpu, mem: Mem): (res: (seq<Tcb>, Mem))
    requires current < n <= |ts| && WellFormedCpu(cpu)
    requires ContextsSaved(ts, n, current, mem)
    ensures var (ts', mem') := res;
            && |ts'| == |ts|
            && ts'[current] == ts[current].(psp := cpu.psp - SAVED_WORDS)
            && (forall k :: 0 <= k < |ts| && k != current ==> ts'[k] == ts[k])
            && Mapped(mem', cpu.psp - SAVED_WORDS, cpu.psp)
            && (forall t :: 0 <= t < SAVED_WORDS ==> mem'[cpu.psp - SAVED_WORDS + t] == cpu.callee[t])
            && SameOutside(mem, mem', cpu.psp - SAVED_WORDS, cpu.psp)
            && (forall k :: 0 <= k < n ==> Mapped(mem', ts'[k].psp, ts'[k].psp + SAVED_WORDS))
            && Resume(mem', ts'[current].psp) == cpu
  {
    var (m, sp) := Save(mem, cpu.psp, cpu.callee);
    ResumeAfterSave(mem, cpu);
    (SetCurrentTaskPsp(ts, current, sp), m)
  }

  /** Saved contexts depend only on the stored stack pointers: a table
      whose first n pointers are those of a table with every context mapped
      has every context mapped too. */
  lemma ContextsKept(ts: seq<Tcb>, ts': seq<Tcb>, n: nat, current: nat, mem: Mem)
    requires n <= |ts| && n <= |ts'| && current < n
    requires forall k :: 0 <= k < n ==> Mapped(mem, ts[k].psp, ts[k].psp + SAVED_WORDS)
    requires forall k :: 0 <= k < n ==> ts'[k].psp == ts[k].psp
    ensures ContextsSaved(ts', n, current, mem)
    ensures Mapped(mem, ts'[current].psp, ts'[current].psp + SAVED_WORDS)
  {
    assert ts'[current].psp == ts[current].psp;
  }
}

=== FILE: words.dfy ===
/**
  Machine words and word-addressed memory shared by every scheduler variant.

  A pointer of the kernel (`uint32_t *`) is modelled as a word index: moving a
  `uint32_t *` down by one (`ptr--`) lowers the index by one. Memory is a
  finite map from word index to 32-bit word; an address outside the map is
  memory the model knows nothing about.
 */
module Words {

  const WORD_MODULUS: int := 0x1_0000_0000

  /** A `uint32_t`. */
  type Word = x: int | 0 <= x < WORD_MODULUS

  /** A `uint32_t *`, as a word index. */
  type Addr = int

  type Mem = map<Addr, Word>

  /** The 128 KiB of SRAM variants 1 and 3 place their stacks in, as byte addresses. */
  const RAM_START: int := 0x2000_0000
  const RAM_SIZE: int := 128 * 1024
  const RAM_END: int := RAM_START + RAM_SIZE

  /** The word index of a word-aligned byte address. */
  function WordAddr(byteAddr: int): Addr
  {
    byteAddr / 4
  }

  /** Subtraction on `uint32_t`: wraps modulo 2^32, so 0 - 1 is 0xFFFFFFFF. */
  function Sub32(a: Word, b: Word): (r: Word)
    ensures a >= b ==> r == a - b
    ensures a < b ==> r == a - b + WORD_MODULUS
  {
    (a - b) % WORD_MODULUS
  }

  /** Every word in [lo, hi) has a value. */
  ghost predicate Mapped(mem: Mem, lo: Addr, hi: Addr)
  {
    forall a :: lo <= a < hi ==> a in mem
  }

  /** `mem'` agrees with `mem` on every address outside [lo, hi). */
  ghost predicate SameOutside(mem: Mem, mem': Mem, lo: Addr, hi: Addr)
  {
    forall a :: (a < lo || hi <= a) ==> (a in mem' <==> a in mem) && (a in mem ==> mem'[a] == mem[a])
  }

  /** The words [lo, hi) of `mem`, in ascending address order. */
  function Slice(mem: Mem, lo: Addr, hi: Addr): (ws: seq<Word>)
    requires lo <= hi && Mapped(mem, lo, hi)
    ensures |ws| == hi - lo
    ensures forall t :: 0 <= t < hi - lo ==> ws[t] == mem[lo + t]
    decreases hi - lo
  {
    if lo == hi then [] else [mem[lo]] + Slice(mem, lo + 1, hi)
  }

  /** `ws` stored at ascending addresses from `base`; nothing else changes. */
  function Store(mem: Mem, base: Addr, ws: seq<Word>): (mem': Mem)
    ensures Mapped(mem', base, base + |ws|)
    ensures forall t :: 0 <= t < |ws| ==> mem'[base + t] == ws[t]
    ensures SameOutside(mem, mem', base, base + |ws|)
    decreases |ws|
  {
    if ws == [] then mem
    else
      var rest := Store(mem[base := ws[0]], base + 1, ws[1..]);
      assert forall t :: 1 <= t < |ws| ==> ws[t] == ws[1..][t - 1];
      rest
  }
}
